=== FILE: README.md ===
# tmxgo core in Dafny

A functional model of the algorithmic core of `tmxgo`, a Go reader and writer
for TMX tile maps (the format of the Tiled map editor). Everything the model
covers lives in `tmx.go`:

- the gid codec: a 32-bit global tile id carries a horizontal, a vertical
  and a diagonal flip flag in bits 31, 30 and 29 and the tile id in the low 29
  bits;
- layer payload decoding (`Data.Tiles`): plain tile elements, or base64 text,
  optionally gzip- or zlib-compressed, holding little-endian 32-bit gids;
  "csv" is rejected;
- the grid view of a layer (`GetTileGrid`), column-major cells of parsed gids,
  and the write-back (`SetTileGrid`), which always produces zlib-compressed
  base64;
- tile resolution (`newTile`, `tilesFromLayer`): tilesets ordered by first
  gid, the owning tileset of a gid, the tile index, the world rectangle of each
  layer slot, and the texture rectangle (`Tileset.TextureBounds`);
- layer attribute normalisation on load (`afterDeserialize`) and on save
  (`beforeSerialize`), and the map passes that run it over every layer;
- lookups: `LayerByName`, `LayerByIndex`, `GetTexturePath`.

Modules follow the program's structure:

| file | module | models |
|---|---|---|
| wrappers.dfy | Wrappers | `Option` and `Result` outcomes |
| goint.dfy | GoInt | Go `int32` wrap-around and truncating `/` and `%` |
| gostrings.dfy | GoStrings | `strings.TrimSpace` and `strconv.ParseInt(s, 10, 32)` |
| gid.dfy | Gid | `parseGid`, `encodeGid` |
| littleendian.dfy | LittleEndian | `binary.Read`/`binary.Write` of `[]uint32`, little-endian |
| externals.dfy | Externals | base64, zlib, gzip and float32 text as parameters (`Library`) with the laws the proofs use (`Lawful`) |
| errors.dfy, schema.dfy | Errors, Schema | error kinds; pass-through records |
| tiledata.dfy | TileData | `Data`: payload decoding, grid view, write-back |
| tilesets.dfy | Tilesets | `byFirstGid`, `newTile`, `TextureBounds`, `GetTexturePath` |
| layers.dfy | Layers | `Layer`: attribute load/save, `GetGrid`, `SetGrid` |
| passes.dfy | Passes | a loop over a sequence that stops at the first error |
| maps.dfy | Maps | `Map`: lookups, `tilesFromLayer`, the map passes |
| scenarios.dfy | Scenarios | the inputs of `tmx_test.go`, worked through the model |

Library collaborators are parameters: `Library` holds base64 encode/decode,
zlib compress/decompress, gzip decompress, float32 parse and shortest format
as function values, and the ghost predicate `Lawful` states only that decoding
inverts encoding, that the shortest text of a float is never blank and parses
back to the same float (NaN excepted). Floats are kept as their bit pattern;
the only float constant the code compares against is 1.0.

Where the code behaves differently from its documented intent, the model follows the code:

- trailing 1 to 3 payload bytes are silently dropped (`binary.Read` into a
  slice of `len/4` words), not reported (`LittleEndian.EncodeDecode`);
- `tilesFromLayer` keeps a `nil` hole for every gid 0 — `j` advances on every
  slot, so `t[:j]` is the whole slice — rather than compacting them;
- `sort.Sort` is not stable; the model sorts with one particular (stable)
  insertion sort and proves that a tile's index, flags and the first gid of
  its tileset do not depend on how tilesets with equal first gids are ordered
  (`Tilesets.TieOrderIrrelevant`); which of the tied tilesets is chosen does;
- `LayerByIndex` guards with `index > len` rather than `>=`, so the index
  `len(Layers)` passes the guard and then panics on the slice index; the model
  returns the distinct outcome `IndexPanic` for it;
- `TextureBounds` computes the texture column as `index % tileshigh`, not
  `% tileswide`, and the model keeps that (`Tilesets.TextureColumnUsesRows`
  shows two tiles of a one-row image landing on the same rectangle).

Go runtime panics that the callers are expected to avoid are preconditions:
division by zero in the geometry (`Tilesets.CanResolve`, `Maps.Resolvable`),
and, in `SetTileGrid` on an arbitrary grid, both `make` with a negative
length and the index-out-of-range panic of reading `grid.Tiles[x][y]` from
a grid with fewer than `width` columns or a column shorter than `height`
(`TileData.Writable` asks for enough columns of enough cells). `GetTileGrid` checks the gid count against
`width * height` before it allocates, so a negative width gives the decoding
or count error like any other layer; only when the count matches (which
needs a height of at most zero) does its `make` panic, and the model returns
the outcome `WidthPanic` for that case.

## Model

| member | source | states |
|---|---|---|
| Gid.ParseGid | tmx.go:195-201 | the id is below 2^29; each flag is set exactly when its bit (31, 30, 29) is set; a gid below 2^29 is a bare id with no flags |
| Gid.EncodeGid | tmx.go:203-215 | the low 29 bits are the id's; bits 31, 30 and 29 are set exactly when the horizontal, vertical and diagonal flags are requested or the id already has them; with a 29-bit id the gid is 0 only for the unflipped id 0 |
| Gid.EncodeParse | tmx.go:188-215 | every 32-bit gid survives parse then encode |
| Gid.ParseEncode | tmx.go:188-215 | an id below 2^29 with any flags survives encode then parse |
| Gid.EncodeLosesHighIdBits | tmx.go:203-215 | an id with bit 29 set is indistinguishable from a diagonal flag after encoding |
| GoInt.Wrap32 | tmx.go:126-127 | the `int32` value congruent to the argument modulo 2^32, the argument itself when it fits |
| GoInt.Quot | tmx.go:334 | Go's `/` on signed integers: magnitude is the quotient of magnitudes, sign is the product of signs (truncation toward zero) |
| GoInt.Rem | tmx.go:335 | Go's `%`: `a == b * Quot(a, b) + r`, smaller than `b` in magnitude, with the sign of `a` |
| GoInt.Div32 | tmx.go:330-331 | Go's `int32` division is the quotient truncated toward zero, except `-2^31 / -1`, which wraps to `-2^31`; on non-negative operands it is the mathematical quotient |
| GoInt.QuotBound | tmx.go:330-331 | a truncated quotient is no larger in magnitude than its dividend, so it stays within `int32` except for `-2^31 / -1` |
| GoInt.QuotOfNatural | tmx.go:126-127 | on non-negative operands Go's `/` and `%` agree with Euclidean division |
| GoStrings.TrimSpace | tmx.go:540-542 | the result is a contiguous piece of the text with only white space before and after it; it is empty exactly when the text is all white space, and otherwise starts and ends with non-space |
| GoStrings.TrimSpaceUnique | tmx.go:540-542 | any piece of the text with only white space around it and non-space at both ends is the trimmed text, so the description above fixes the result |
| GoStrings.TrimSpaceKeepsTrimmed | tmx.go:540-542 | text without white space at either end is left unchanged, so trimming twice is trimming once |
| GoStrings.ParseInt32 | tmx.go:469-472 | succeeds exactly for an optional `+` or `-` followed by at least one decimal digit whose signed value lies in `int32`, and then returns that signed value; no white space is accepted anywhere |
| GoStrings.ParseFormatRoundTrip | tmx.go:484-488 | the decimal text of every `int32` parses back to it (so "0" reads as 0) |
| LittleEndian.Decode | tmx.go:575-580 | `floor(n/4)` words, word `i` built from bytes `4i..4i+3`, least significant first |
| LittleEndian.Encode | tmx.go:664 | four bytes per word, byte `k` of word `i` at `4i+k`, least significant first |
| LittleEndian.DecodeEncode | tmx.go:664 | reading back written words gives the words |
| LittleEndian.EncodeDecode | tmx.go:575-580 | writing back read words gives the bytes up to the last whole word: trailing bytes are dropped |
| TileData.Contents | tmx.go:540-542 | a contiguous piece of the payload text with only white space before and after it; empty exactly for an all-space payload, otherwise without surrounding white space |
| TileData.Payload | tmx.go:550-574 | a base64 failure is `Base64Invalid`; "gzip" and "zlib" inflate the decoded bytes, a failure being `GzipInvalid` or `ZlibInvalid`; with any other compression the decoded bytes are used as they are |
| TileData.Base64Tiles | tmx.go:544-586 | succeeds exactly when the payload decodes, and otherwise fails with the payload's own error; gid `i` is the little-endian word of payload bytes `4i..4i+3`, `floor(n/4)` of them |
| TileData.CsvTiles | tmx.go:588-591 | always fails with `CsvNotImplemented` |
| TileData.Tiles | tmx.go:593-603 | "csv" fails; an encoding other than base64/csv gives the literal tiles unchanged; base64 is `Base64Tiles`: it succeeds exactly when the payload decodes, fails with the payload's error otherwise, and has one gid per four bytes |
| TileData.GetTileGrid | tmx.go:605-638 | a decoding error first, then `TileCountMismatch` when the gid count is not `width * height`, then `WidthPanic` for a negative width; otherwise cell `(x, y)` is the parse of gid `width * y + x` |
| TileData.GridOf | tmx.go:619-636 | a `w` by `h` column-major grid whose cell `(x, y)` parses gid `w * y + x` |
| TileData.Linearise | tmx.go:651-661 | `width * height` gids with gid `width * y + x` the encoding of cell `(x, y)`; zero gids when a dimension is not positive |
| TileData.SetTileGrid | tmx.go:640-671 | the encoding becomes base64, the compression zlib, and the literal tiles are dropped |
| TileData.TilesOfSetTileGrid | tmx.go:640-671 | under lawful codecs a written grid decodes to its row-major re-encoded cells |
| TileData.GridOfLinearise | tmx.go:605-671 | the grid view of a well-formed grid's gids is that grid |
| TileData.LineariseGridOf | tmx.go:605-671 | re-encoding the grid view of `w * h` gids gives the same gids |
| TileData.GridRoundTrip | tmx.go:605-671 | under lawful codecs, reading a written well-formed grid gives the same grid: ids and all three flags per cell |
| TileData.GetTileGridWellFormed | tmx.go:605-638 | every grid read has the declared shape and 29-bit ids |
| TileData.GetSetGetStable | tmx_test.go:379-412 | read, write back, read again gives the grid first read |
| TileData.TilesStable | tmx.go:605-671 | the decoded gids survive a read and write-back, flags included |
| TileData.RowMajorInverse | tmx.go:624 | every index below `w * h` is `w * y + x` for exactly the column `k % w` and row `k / w` |
| Tilesets.TextureBounds | tmx.go:325-339 | all zero without an image; otherwise the tile's width and height and coordinates within `int32` |
| Tilesets.TextureBoundsPlain | tmx.go:325-339 | for a non-negative index and no overflow, the rectangle at column `index % tileshigh` and row `tileshigh - 1 - index / tileswide` |
| Tilesets.TextureColumnUsesRows | tmx.go:335 | on a 64x16 image of 16x16 tiles, tiles 0 and 1 get the same rectangle |
| Tilesets.Insert | tmx.go:272-277 | adds one tileset, keeps the others, and keeps the order by first gid |
| Tilesets.SortByFirstGid | tmx.go:272-277 | a permutation of the tilesets ordered by first gid |
| Tilesets.SortedUnique | tmx.go:120 | two ordered permutations of the same first gids are equal |
| Tilesets.SortedKeysUnique | tmx.go:120 | every ordering by first gid of the same tilesets has the same first gids at every position |
| Tilesets.ScanFrom | tmx.go:232-240 | the scan from `i` stops before the first key above the id, or at the last position |
| Tilesets.Owner | tmx.go:232-240 | the position before the first key from position 1 on that exceeds the id, or the last position |
| Tilesets.OwnerIsGreatestAtMost | tmx.go:217-240 | on ordered first gids with the first at most the id, the owner has the greatest first gid not above the id |
| Tilesets.OwnerBelowFirst | tmx.go:232-240 | an id below every first gid falls to the first tileset |
| Tilesets.NewTile | tmx.go:218-252 | no tilesets is `NoTilesets`; otherwise the tile has the owning tileset, the gid's flags, the given world rectangle, the texture rectangle of its index, and an index that added to the first gid gives the id modulo 2^32 |
| Tilesets.NewTileOrdered | tmx.go:217-252 | on ordered tilesets the tile's tileset has the greatest first gid not above the id, and the index is the plain difference |
| Tilesets.NewTileBelowFirst | tmx.go:238-241 | an id below the first first gid gets the first tileset and an index wrapped around 2^32 |
| Tilesets.TieOrderIrrelevant | tmx.go:120 | for any two orderings by first gid of the same tilesets, `newTile` gives the same index and flags and a tileset with the same first gid |
| Tilesets.GetTexturePath | tmx.go:254-270 | fails exactly when no tile has a tileset with an image; otherwise the source of the first such tile's image |
| Layers.LoadOpacity | tmx.go:461-468 | blank text is 1.0; other text, untrimmed, must parse as a float, and its failure is `OpacityInvalid` |
| Layers.LoadVisible | tmx.go:469-476 | blank text is visible; other text, untrimmed, must parse as an `int32`, and the layer is visible exactly when it is positive |
| Layers.PaddedVisibleRejected | tmx.go:469-472 | non-blank visibility text with white space at either end is rejected |
| Layers.LoadLayer | tmx.go:456-478 | succeeds exactly when both texts load, sets only opacity and visibility, and reports the opacity error first |
| Layers.GetGrid | tmx.go:501-503 | `GetTileGrid` at the layer's dimensions: fails with the decoding error, then `TileCountMismatch` for a gid count other than `width * height`, then `WidthPanic` for a negative width; otherwise a well-formed grid of the layer's dimensions whose cell `(x, y)` is the parsed gid at `width * y + x` |
| Layers.SetGrid | tmx.go:505-507 | only the data changes; under lawful codecs a well-formed grid of the layer's size reads back as itself |
| Layers.SaveAttributes | tmx.go:484-493 | only the two texts change; the visibility text is empty for a visible layer and `"0"` for a hidden one, and loading it gives back the visibility; the opacity text is empty exactly for 1.0 and loads back to a non-NaN opacity |
| Layers.SaveLayer | tmx.go:480-499 | succeeds exactly when the grid reads, and otherwise fails with the grid's error; only the attribute texts and the data change; the grid is preserved |
| Layers.LoadAfterSave | tmx.go:456-499 | a saved layer loads as itself, keeping visibility, opacity (unless NaN) and grid |
| Passes.Collect | tmx.go:144-151 | on success one result per element in order; on failure the error of the first failing element, all earlier ones having succeeded |
| Passes.CollectSucceeds | tmx.go:144-160 | the pass succeeds exactly when every element's step succeeds |
| Passes.CollectIdentity | tmx.go:144-160 | a step that returns each element unchanged makes the pass return the sequence |
| Maps.FindLayer | tmx.go:77-82 | the first position from `i` holding the name, or the length when none does |
| Maps.LayerByName | tmx.go:76-85 | succeeds exactly when some layer has the name, returning the first; otherwise `NoLayerNamed` |
| Maps.LayerByIndex | tmx.go:87-94 | negative and beyond-length indices are out of bounds; the index equal to the length panics; any success is the layer at the index |
| Maps.TileBoundsAt | tmx.go:125-130 | the rectangle of slot `i` is one map tile wide and high; its position is stated by the two rows below |
| Maps.TileBoundsOfSlot | tmx.go:125-130 | slot `i` is at column `i % width` and row `height - 1 - i / width`, in map tiles, one map tile wide and high |
| Maps.TileBoundsOfCell | tmx.go:125-130 | the slot of grid cell `(x, y)` is at column `x` and row `height - 1 - y` |
| Maps.ResolveFrom | tmx.go:123-141 | one slot per gid; a hole exactly for gid 0, otherwise the `newTile` tile at the slot's rectangle; fails exactly when there are no tilesets and a non-zero gid |
| Maps.TilesFromLayer | tmx.go:112-142 | tilesets end up an ordered permutation (untouched if decoding fails); one slot per decoded gid with holes kept; fails only on decoding or on a map without tilesets |
| Maps.TilesFromLayerSlots | tmx.go:112-142 | each slot is a hole exactly for gid 0, else a tile of one of the map's tilesets with the gid's id (modulo 2^32), flags and slot rectangle |
| Maps.TilesFromLayerName | tmx.go:96-102 | a missing name is `NoLayerNamed` with the tilesets untouched; otherwise `tilesFromLayer` on the first layer so named |
| Maps.TilesFromLayerIndex | tmx.go:104-110 | a rejected index leaves the tilesets untouched; otherwise `tilesFromLayer` on the layer at the index |
| Maps.AfterDeserialize | tmx.go:144-151 | only the layers change; every layer loaded, or the error of the first that fails to |
| Maps.BeforeSerialize | tmx.go:153-160 | only the layers change; every layer saved (so none has a negative width), or the error of the first that fails to |
| Maps.SaveThenLoad | tmx.go:144-160 | under lawful codecs and without NaN opacities, a saved map loads as itself |
| Maps.SaveKeepsGrids | tmx.go:153-160 | under lawful codecs every layer of a saved map keeps its width and its grid, flags included |
| Scenarios.GidExamples | tmx_test.go:124-141 | the four gids of the codec test parse to the expected ids and flags and encode back |
| Scenarios.DefaultAttributesExample | tmx_test.go:156-161 | a layer without opacity and visibility attributes is opaque and visible |
| Scenarios.ParsedAttributesExample | tmx_test.go:162-167 | with a float parser that reads "0.5" as the float32 0.5, `opacity="0.5" visible="0"` loads opacity 0.5 and a hidden layer |
| Scenarios.NegativeWidthExample | tmx.go:605-617 | a 2-high layer of width -1 with no gids fails to save with the count error, not a panic, alone and inside a map |
| Scenarios.FirstLayerExample | tmx_test.go:179-205 | gids 1, 0, 2, 6 resolve to tile 0 of `sprites1`, a hole, tile 1 of `sprites1` and tile 1 of `sprites2`, none of the three tiles flipped |
| Scenarios.SecondLayerExample | tmx_test.go:206-247 | the flagged gids resolve to indices 0, 2, 3, 9 in the expected tilesets with the expected flags |

## Left out

- The XML mapping (`ParseMapString`, `Serialize`, struct tags) and the
  element types with no algorithm (`ObjectGroup`, `Object`, `Polygon`,
  `Polyline`, `ImageLayer`, `Terrain`, `TilesetTile`, embedded image data):
  declarative pass-through.
- base64, zlib, gzip and float text conversion themselves: library code,
  modelled as the parameters of `Library` with the laws of `Lawful`.
- Floating point: `GetScaled`, `ScaledBounds`, `ScaledTextureBounds`, and the
  `float32` conversion of the integer rectangles, which are kept as exact
  integer products of `int32` values.
- Reader and writer errors, `Close` and `defer`, and the text of error
  messages: errors are kinds carrying the values they mention.
- In-place mutation on failure: Go's `afterDeserialize` and
  `beforeSerialize` leave earlier layers already updated when they return an
  error, and also part of the failing layer: in `beforeSerialize` its
  attribute texts, and in `afterDeserialize` its opacity, which is written
  (tmx.go:465, 467) before the visibility parse can fail (tmx.go:470-472).
  The model returns only the error.
- A `nil` `Data` pointer in a layer (a nil dereference in Go): every layer has
  data.
- when `newTile` fails, `tilesFromLayer` (tmx.go:136-137) returns its
  full-length slice together with the error: the slots before the failing
  one already hold their tiles and the rest are `nil` (a decoding failure
  returns a `nil` slice). Callers are expected to look only at the error, so
  the model returns the error alone.
- `int32(len(data) / 4)` in `base64Tiles` truncates only for payloads of at
  least 2^33 bytes; the model takes the count as exact.
- Tilesets.SortByFirstGid: the order `sort.Sort` leaves equal first gids in
  is unspecified; the model fixes one order. `TieOrderIrrelevant` shows that
  a tile's index, flags and first gid do not depend on it, but when two
  tilesets share a first gid, which of them a tile gets, and so its texture
  rectangle and image, depends on that order and is not promised.
- Layers.SaveAttributes: the opacity text is only related to the float
  through `Lawful`; NaN opacities are excluded from the opacity round trip
  because a NaN's payload is not preserved by text. The visibility round
  trip holds unconditionally.
- Maps.TileBoundsOfSlot: stated only for slots below 2^31 and rows within
  `int32`; beyond that `TileBoundsAt` keeps Go's wrap-around without a
  closed form.

=== FILE: errors.dfy ===
/** The failures the TMX core reports. Go returns them as formatted `error`
    values; the model keeps their kind and the values they mention, not
    their message text. */
module Errors {

  datatype Error =
    | Base64Invalid                                        // base64 text did not decode
    | GzipInvalid                                          // gzip stream did not decompress
    | ZlibInvalid                                          // zlib stream did not decompress
    | CsvNotImplemented                                    // "csv" layer encoding
    | TileCountMismatch(count: int, width: int, height: int)
    | NoTilesets                                           // a gid to resolve but no tileset
    | NoLayerNamed(name: string)
    | IndexOutOfBounds(index: int)
    | IndexPanic(index: int)                               // Go's runtime index-out-of-range panic
    | WidthPanic(width: int)                               // Go's panic on `make` with a negative length
    | OpacityInvalid(raw: string)
    | VisibleInvalid(raw: string)
    | NoSuitableTileset                                    // no tile with a tileset image
}

=== FILE: externals.dfy ===
/** The library routines the core calls but does not implement: base64
    (section 4 of RFC 4648), zlib (RFC 1950), gzip (RFC 1952), and Go's
    float32 parsing and shortest formatting. They are parameters of the model;
    `Lawful` states the only facts about them the proofs rely on. */
module Externals {
  import opened Wrappers
  import opened GoStrings
  import opened LittleEndian

  /** A Go `float32`, kept as its IEEE 754 bit pattern. */
  datatype Float32 = Float32(bits: bv32)

  /** 1.0: the only bit pattern that compares equal to 1.0. */
  const One: Float32 := Float32(0x3F80_0000)

  predicate IsNaN(f: Float32) {
    f.bits & 0x7F80_0000 == 0x7F80_0000 && f.bits & 0x007F_FFFF != 0
  }

  datatype Library = Library(
    base64Encode: seq<byte> -> string,
    base64Decode: string -> Option<seq<byte>>,
    zlibCompress: seq<byte> -> seq<byte>,
    zlibDecompress: seq<byte> -> Option<seq<byte>>,
    gzipDecompress: seq<byte> -> Option<seq<byte>>,
    parseFloat32: string -> Option<Float32>,
    formatFloat32: Float32 -> string)

  /** Decoding inverts encoding: base64 text survives the trimming the
      reader applies, a zlib stream inflates to what was deflated, and the
      shortest decimal text of a float is never blank and parses back to the
      same float (NaN payloads excepted). */
  ghost predicate Lawful(lib: Library) {
    && (forall b :: lib.base64Decode(TrimSpace(lib.base64Encode(b))) == Some(b))
    && (forall b :: lib.zlibDecompress(lib.zlibCompress(b)) == Some(b))
    && (forall f :: !AllSpace(lib.formatFloat32(f)))
    && (forall f :: !IsNaN(f) ==> lib.parseFloat32(lib.formatFloat32(f)) == Some(f))
  }
}

=== FILE: gid.dfy ===
/** The gid codec (tmx.go, parseGid/encodeGid): a 32-bit global tile id
    carries three flip flags in its top bits and the tile id in the low 29. */
module Gid {

  type Gid = bv32

  const FlippedH: bv32 := 0x8000_0000
  const FlippedV: bv32 := 0x4000_0000
  const FlippedD: bv32 := 0x2000_0000
  const ClearFlip: bv32 := FlippedH | FlippedV | FlippedD

  /** The largest id the low 29 bits can hold, plus one. */
  const IdLimit: bv32 := 0x2000_0000

  /** One cell of a layer's grid: a tile id and its horizontal (`flipX`),
      vertical (`flipY`) and diagonal (`flipD`) flip flags. `parseGid`
      returns the same four values. */
  datatype GridTile = GridTile(id: bv32, flipX: bool, flipY: bool, flipD: bool)

  /** Splits a gid: bit 31 is the horizontal flag, bit 30 the vertical flag,
      bit 29 the diagonal flag, and the rest is the id. */
  function ParseGid(gid: Gid): (t: GridTile)
    ensures t.id < IdLimit
    ensures t.flipX <==> gid >= FlippedH
    ensures t.flipY <==> (gid << 1) >= FlippedH
    ensures t.flipD <==> (gid << 2) >= FlippedH
    ensures gid < IdLimit ==> t == GridTile(gid, false, false, false)
  {
    GridTile(gid & !ClearFlip, gid & FlippedH != 0, gid & FlippedV != 0, gid & FlippedD != 0)
  }

  /** The id a gid names, as a number. */
  function IdValue(gid: Gid): nat {
    ParseGid(gid).id as nat
  }

  /** ORs the requested flags onto `id`. A flag already set in `id` stays
      set, so `id` should be below `IdLimit`. */
  function EncodeGid(t: GridTile): (gid: Gid)
    ensures gid & !ClearFlip == t.id & !ClearFlip
    ensures t.flipX ==> gid >= FlippedH
    ensures gid & FlippedH != 0 <==> t.flipX || t.id & FlippedH != 0
    ensures gid & FlippedV != 0 <==> t.flipY || t.id & FlippedV != 0
    ensures gid & FlippedD != 0 <==> t.flipD || t.id & FlippedD != 0
    ensures t.id < IdLimit ==> (gid == 0 <==> t == GridTile(0, false, false, false))
  {
    t.id | (if t.flipX then FlippedH else 0) | (if t.flipY then FlippedV else 0) | (if t.flipD then FlippedD else 0)
  }

  /** Every 32-bit gid survives a parse and re-encode. */
  lemma EncodeParse(gid: Gid)
    ensures EncodeGid(ParseGid(gid)) == gid
  {
  }

  /** A cell whose id fits in 29 bits survives an encode and re-parse; the
      flags and the id do not interfere. */
  lemma ParseEncode(t: GridTile)
    requires t.id < IdLimit
    ensures ParseGid(EncodeGid(t)) == t
  {
  }

  /** An id with a flag bit already set cannot be told apart from a flag:
      encoding id 2^29 with no flags reads back as id 0, diagonally flipped. */
  lemma EncodeLosesHighIdBits()
    ensures ParseGid(EncodeGid(GridTile(IdLimit, false, false, false))) == GridTile(0, false, false, true)
  {
  }
}

=== FILE: goint.dfy ===
/** Go's fixed-width signed integer arithmetic on unbounded Dafny integers.
    Go's `int32` addition, subtraction and multiplication wrap modulo 2^32,
    and its `/` and `%` truncate toward zero (Dafny's are Euclidean). */
module GoInt {

  const TwoTo31: int := 0x8000_0000
  const TwoTo32: int := 0x1_0000_0000

  predicate InInt32(x: int) {
    -TwoTo31 <= x < TwoTo31
  }

  type Int32 = x: int | InInt32(x)

  /** Go's `uint32`, for values that are counted and compared rather than
      taken apart bit by bit. */
  type Uint32 = x: int | 0 <= x < TwoTo32

  /** The two's-complement reinterpretation of `x` as an `int32`: what Go
      computes for `int32(x)` and for any wrapped `int32` `+`, `-`, `*`.
      Because wrapping is a ring homomorphism, a chain of those operators may
      be wrapped once at its end. */
  function Wrap32(x: int): (r: Int32)
    ensures (r - x) % TwoTo32 == 0
    ensures InInt32(x) ==> r == x
  {
    (x + TwoTo31) % TwoTo32 - TwoTo31
  }

  function Abs(x: int): nat {
    if x < 0 then -x else x
  }

  /** Go's integer quotient, truncated toward zero. */
  function Quot(a: int, b: int): (q: int)
    requires b != 0
    ensures Abs(q) == Abs(a) / Abs(b)
    ensures (a < 0) == (b < 0) ==> q >= 0
    ensures (a < 0) != (b < 0) ==> q <= 0
  {
    var m: int := NatDiv(Abs(a), Abs(b));
    if (a < 0) != (b < 0) then -m else m
  }

  function NatDiv(a: nat, b: nat): (q: nat)
    requires b > 0
    ensures q == a / b
  {
    a / b
  }

  /** Go's integer remainder: it takes the sign of the dividend. */
  function Rem(a: int, b: int): (r: int)
    requires b != 0
    ensures a == b * Quot(a, b) + r
    ensures Abs(r) < Abs(b)
    ensures r != 0 ==> ((r < 0) <==> (a < 0))
  {
    var m := Abs(a) % Abs(b);
    assert Abs(a) == Abs(b) * (Abs(a) / Abs(b)) + m;
    if a < 0 then -m else m
  }

  /** `a / b` on Go `int32` operands: only `MinInt32 / -1` wraps. */
  function Div32(a: Int32, b: Int32): (r: Int32)
    requires b != 0
    ensures !(a == -TwoTo31 && b == -1) ==> r == Quot(a, b)
    ensures a == -TwoTo31 && b == -1 ==> r == -TwoTo31
    ensures a >= 0 && b > 0 ==> r == a / b
  {
    if a >= 0 && b > 0 then
      QuotOfNatural(a, b);
      assert InInt32(a);
      Wrap32(Quot(a, b))
    else
      assert !(a == -TwoTo31 && b == -1) ==> InInt32(Quot(a, b)) by {
        QuotBound(a, b);
      }
      Wrap32(Quot(a, b))
  }

  /** Dividing by a divisor of magnitude at least 1 does not increase the
      magnitude, so only `-2^31 / -1` leaves the `int32` range. */
  lemma QuotBound(a: Int32, b: Int32)
    requires b != 0
    ensures Abs(Quot(a, b)) <= Abs(a)
    ensures !(a == -TwoTo31 && b == -1) ==> InInt32(Quot(a, b))
  {
    var q := Quot(a, b);
    NatDivBound(Abs(a), Abs(b));
    if a != -TwoTo31 {
      assert InInt32(a) && a > -TwoTo31;
      assert Abs(a) < TwoTo31;
      assert -TwoTo31 < q < TwoTo31;
    } else if b == 1 {
      assert q <= 0 && Abs(q) == TwoTo31;
    } else if b != -1 {
      assert Abs(q) <= TwoTo31 / 2;
    }
  }

  /** `n / d` shrinks `n`, and halves it at least once `d >= 2`. */
  lemma NatDivBound(n: nat, d: nat)
    requires d >= 1
    ensures n / d <= n
    ensures d >= 2 ==> n / d <= n / 2
  {
    var q := n / d;
    assert d * q <= n;
    MulMonotone(d, q);
    if d >= 2 {
      assert 2 * q <= d * q;
    }
  }
  /** On non-negative operands Go's `/` and `%` agree with Dafny's, and the
      quotient never exceeds the dividend. */
  lemma QuotOfNatural(a: int, b: int)
    requires a >= 0 && b > 0
    ensures Quot(a, b) == a / b && Rem(a, b) == a % b
    ensures 0 <= a / b <= a
  {
    var q, r := a / b, a % b;
    assert a == b * q + r && 0 <= r < b;
    if q < 0 {
      MulNegative(b, q);
      assert false;
    }
    MulMonotone(b, q);
    assert Abs(a) == a && Abs(b) == b;
  }

  lemma MulMonotone(b: int, q: int)
    requires b >= 1 && q >= 0
    ensures q <= b * q
  {
  }

  lemma MulNegative(b: int, q: int)
    requires b >= 1 && q < 0
    ensures b * q <= -b
  {
  }
}

=== FILE: gostrings.dfy ===
/** The two pieces of Go's string library whose behaviour the TMX layer code
    depends on: `strings.TrimSpace` and `strconv.ParseInt(s, 10, 32)`. */
module GoStrings {
  import opened Wrappers
  import opened GoInt

  /** Go's `unicode.IsSpace`: the Latin-1 white space characters and the
      Unicode space separators. */
  predicate IsSpace(c: char) {
    var n := c as int;
    || n == 0x09 || n == 0x0A || n == 0x0B || n == 0x0C || n == 0x0D
    || n == 0x20 || n == 0x85 || n == 0xA0 || n == 0x1680
    || (0x2000 <= n <= 0x200A)
    || n == 0x2028 || n == 0x2029 || n == 0x202F || n == 0x205F || n == 0x3000
  }

  predicate AllSpace(s: string) {
    forall k :: 0 <= k < |s| ==> IsSpace(s[k])
  }

  /** Drops the white space at the front of `s`. */
  function TrimLeft(s: string): (r: string)
    ensures |r| <= |s| && r == s[|s| - |r|..]
    ensures AllSpace(s[..|s| - |r|])
    ensures r != [] ==> !IsSpace(r[0])
  {
    if s != [] && IsSpace(s[0]) then TrimLeft(s[1..]) else s
  }

  /** Drops the white space at the back of `s`. */
  function TrimRight(s: string): (r: string)
    ensures |r| <= |s| && r == s[..|r|]
    ensures AllSpace(s[|r|..])
    ensures r != [] ==> !IsSpace(r[|r| - 1])
  {
    if s != [] && IsSpace(s[|s| - 1]) then TrimRight(s[..|s| - 1]) else s
  }

  /** `strings.TrimSpace`: `s` without the white space at either end. The
      result neither starts nor ends with white space, and it is empty
      exactly when `s` is all white space. */
  function TrimSpace(s: string): (r: string)
    ensures |r| <= |s|
    ensures exists i, j :: 0 <= i <= j <= |s| && r == s[i..j] && AllSpace(s[..i]) && AllSpace(s[j..])
    ensures r != [] ==> !IsSpace(r[0]) && !IsSpace(r[|r| - 1])
    ensures r == [] <==> AllSpace(s)
  {
    var left := TrimLeft(s);
    var r := TrimRight(left);
    TrimWindow(s, left, r);
    TrimEmpty(s, left, r);
    var i := |s| - |left|;
    assert r == s[i..i + |r|];
    r
  }

  /** The text left after trimming the front, then the back, is a window of
      `s` with only white space outside it. */
  lemma TrimWindow(s: string, left: string, r: string)
    requires left == TrimLeft(s) && r == TrimRight(left)
    ensures var i := |s| - |left|;
            i + |r| <= |s| && r == s[i..i + |r|] && AllSpace(s[..i]) && AllSpace(s[i + |r|..])
  {
    PrefixOfSuffix(s, left, r);
  }

  /** Trimming leaves nothing exactly when `s` is all white space. */
  lemma TrimEmpty(s: string, left: string, r: string)
    requires left == TrimLeft(s) && r == TrimRight(left)
    ensures r == [] <==> AllSpace(s)
  {
    if r == [] {
      assert s == s[..|s| - |left|] + left;
    }
  }

  /** A prefix `r` of a suffix `left` of `s` is a slice of `s`, and what
      follows it in `left` is what follows it in `s`. */
  lemma PrefixOfSuffix(s: string, left: string, r: string)
    requires |left| <= |s| && left == s[|s| - |left|..] && |r| <= |left| && r == left[..|r|]
    ensures var i := |s| - |left|;
            r == s[i..i + |r|] && s[i + |r|..] == left[|r|..]
  {
  }

  /** The trimmed text is determined by the description above: any window of
      `s` with only white space outside it and none at its ends is it. */
  lemma TrimSpaceUnique(s: string, i: nat, j: nat)
    requires i <= j <= |s| && AllSpace(s[..i]) && AllSpace(s[j..])
    requires i < j ==> !IsSpace(s[i]) && !IsSpace(s[j - 1])
    ensures TrimSpace(s) == s[i..j]
  {
    var r := TrimSpace(s);
    var i', j' :| 0 <= i' <= j' <= |s| && r == s[i'..j'] && AllSpace(s[..i']) && AllSpace(s[j'..]);
    if i == j {
      SpaceAround(s, i, j);
    } else {
      assert !AllSpace(s) by {
        assert !IsSpace(s[i]);
      }
      assert i' < j' && !IsSpace(s[i']) && !IsSpace(s[j' - 1]) by {
        assert r[0] == s[i'] && r[|r| - 1] == s[j' - 1];
      }
      SameWindow(s, i, j, i', j');
    }
  }

  /** White space before `i` and from `j` on, with nothing in between, is
      all white space. */
  lemma SpaceAround(s: string, i: nat, j: nat)
    requires i == j <= |s| && AllSpace(s[..i]) && AllSpace(s[j..])
    ensures AllSpace(s)
  {
    assert s == s[..i] + s[j..];
  }

  /** Two windows of non-blank text, each with only white space outside and
      non-space at both ends, coincide. */
  lemma SameWindow(s: string, i: nat, j: nat, i': nat, j': nat)
    requires i < j <= |s| && i' < j' <= |s|
    requires AllSpace(s[..i]) && AllSpace(s[j..]) && AllSpace(s[..i']) && AllSpace(s[j'..])
    requires !IsSpace(s[i]) && !IsSpace(s[j - 1]) && !IsSpace(s[i']) && !IsSpace(s[j' - 1])
    ensures i == i' && j == j'
  {
    if i < i' {
      assert false;
    }
    if i' < i {
      assert false;
    }
    if j < j' {
      assert false;
    }
    if j' < j {
      assert false;
    }
  }

  /** Text with no white space at either end is left as it is, so trimming
      is idempotent. */
  lemma TrimSpaceKeepsTrimmed(s: string)
    requires s != [] ==> !IsSpace(s[0]) && !IsSpace(s[|s| - 1])
    ensures TrimSpace(s) == s
    ensures TrimSpace(TrimSpace(s)) == TrimSpace(s)
  {
  }

  predicate IsDigit(c: char) {
    '0' <= c <= '9'
  }

  predicate AllDigits(s: string) {
    forall k :: 0 <= k < |s| ==> IsDigit(s[k])
  }

  /** The value of a run of decimal digits, most significant first. */
  function DecimalValue(s: string): nat
    requires AllDigits(s)
  {
    if s == [] then 0
    else DecimalValue(s[..|s| - 1]) * 10 + (s[|s| - 1] as int - '0' as int)
  }

  /** Decimal text as `strconv.ParseInt` accepts it in base 10: an optional
      sign followed by at least one digit, and nothing else. */
  predicate IsDecimal(s: string) {
    && s != []
    && if s[0] == '+' || s[0] == '-' then |s| >= 2 && AllDigits(s[1..]) else AllDigits(s)
  }

  /** The value decimal text denotes. */
  function SignedValue(s: string): int
    requires IsDecimal(s)
  {
    if s[0] == '-' then -(DecimalValue(s[1..]) as int)
    else if s[0] == '+' then DecimalValue(s[1..])
    else DecimalValue(s)
  }

  /** `strconv.ParseInt(s, 10, 32)` with its error folded into `None`: an
      optional sign followed by at least one decimal digit and nothing else,
      whose value fits in an `int32`. No white space is skipped. */
  function ParseInt32(s: string): (r: Option<Int32>)
    ensures r.Some? <==> IsDecimal(s) && InInt32(SignedValue(s))
    ensures r.Some? ==> r.value == SignedValue(s)
    ensures r.Some? ==> s != [] && IsSignOrDigit(s[0]) && AllDigits(s[1..])
    ensures r.Some? ==> forall k :: 0 <= k < |s| ==> !IsSpace(s[k])
    ensures r.Some? && s[0] != '-' ==> r.value >= 0
  {
    if s == [] then None
    else
      var signed := s[0] == '+' || s[0] == '-';
      var digits := if signed then s[1..] else s;
      if digits == [] || !AllDigits(digits) then None
      else
        var magnitude: int := DecimalValue(digits);
        if s[0] == '-' then
          if magnitude <= TwoTo31 then Some(-magnitude) else None
        else
          if magnitude < TwoTo31 then Some(magnitude) else None
  }

  predicate IsSignOrDigit(c: char) {
    c == '+' || c == '-' || IsDigit(c)
  }

  function DigitChar(d: nat): (c: char)
    requires d < 10
    ensures IsDigit(c) && c as int - '0' as int == d
  {
    ('0' as int + d) as char
  }

  /** The shortest decimal spelling of `n`. */
  function FormatNat(n: nat): (r: string)
    ensures r != [] && AllDigits(r)
    ensures DecimalValue(r) == n
  {
    if n < 10 then [DigitChar(n)]
    else
      var r := FormatNat(n / 10) + [DigitChar(n % 10)];
      assert r[..|r| - 1] == FormatNat(n / 10);
      r
  }

  /** The decimal spelling of an integer, as `strconv.Itoa` writes it. */
  function FormatInt(n: int): string {
    if n < 0 then "-" + FormatNat(-n) else FormatNat(n)
  }

  /** `ParseInt32` reads back every `int32` written in decimal. */
  lemma ParseFormatRoundTrip(n: int)
    requires InInt32(n)
    ensures ParseInt32(FormatInt(n)) == Some(n)
  {
    var s := FormatInt(n);
    if n < 0 {
      assert s[1..] == FormatNat(-n);
    } else {
      assert s == FormatNat(n);
    }
  }
}

=== FILE: layers.dfy ===
/** A tile layer (tmx.go, type Layer): its attribute normalisation after
    reading and before writing, and its grid accessors. */
module Layers {
  import opened Wrappers
  import opened GoInt
  import opened GoStrings
  import opened Schema
  import opened Externals
  import opened Errors
  import opened TileData
  import Gid

  /** `rawOpacity` and `rawVisible` are the attribute texts; `opacity` and
      `visible` are the values derived from them. */
  datatype Layer = Layer(
    name: string,
    x: Int32,
    y: Int32,
    width: Int32,
    height: Int32,
    rawOpacity: string,
    opacity: Float32,
    rawVisible: string,
    visible: bool,
    properties: seq<Property>,
    data: Data)

  /** The opacity an attribute text stands for: blank text means the default
      1.0; any other text, untrimmed, must parse as a float. */
  function LoadOpacity(raw: string, lib: Library): (r: Result<Float32, Error>)
    ensures AllSpace(raw) ==> r == Success(One)
    ensures !AllSpace(raw) ==> (r.Success? <==> lib.parseFloat32(raw).Some?)
    ensures !AllSpace(raw) && r.Success? ==> r.value == lib.parseFloat32(raw).value
    ensures r.Failure? ==> r.error == OpacityInvalid(raw)
  {
    if TrimSpace(raw) != "" then
      match lib.parseFloat32(raw)
      case None => Failure(OpacityInvalid(raw))
      case Some(f) => Success(f)
    else Success(One)
  }

  /** The visibility an attribute text stands for: blank text means visible;
      any other text, untrimmed, must be a decimal `int32`, and the layer is
      visible when that number is positive. */
  function LoadVisible(raw: string): (r: Result<bool, Error>)
    ensures AllSpace(raw) ==> r == Success(true)
    ensures !AllSpace(raw) ==> (r.Success? <==> ParseInt32(raw).Some?)
    ensures !AllSpace(raw) && r.Success? ==> (r.value <==> ParseInt32(raw).value > 0)
    ensures r.Failure? ==> r.error == VisibleInvalid(raw)
  {
    if TrimSpace(raw) != "" then
      match ParseInt32(raw)
      case None => Failure(VisibleInvalid(raw))
      case Some(i) => Success(i > 0)
    else Success(true)
  }

  /** Although blank text is detected after trimming, the number itself is
      parsed untrimmed: text with white space at either end that is not all
      white space is rejected. */
  lemma PaddedVisibleRejected(raw: string)
    requires !AllSpace(raw) && (IsSpace(raw[0]) || IsSpace(raw[|raw| - 1]))
    ensures LoadVisible(raw) == Failure(VisibleInvalid(raw))
  {
  }

  /** `Layer.afterDeserialize`: derives the opacity, then the visibility,
      from their attribute texts, stopping at the first that does not parse.
      Nothing else about the layer changes. */
  function LoadLayer(l: Layer, lib: Library): (r: Result<Layer, Error>)
    ensures r.Success? <==> LoadOpacity(l.rawOpacity, lib).Success? && LoadVisible(l.rawVisible).Success?
    ensures r.Success? ==> r.value == l.(opacity := r.value.opacity, visible := r.value.visible)
    ensures r.Success? ==> (r.value.opacity == LoadOpacity(l.rawOpacity, lib).value
                         && r.value.visible == LoadVisible(l.rawVisible).value)
    ensures LoadOpacity(l.rawOpacity, lib).Failure? ==> r == Failure(OpacityInvalid(l.rawOpacity))
    ensures LoadOpacity(l.rawOpacity, lib).Success? && LoadVisible(l.rawVisible).Failure? ==>
              r == Failure(VisibleInvalid(l.rawVisible))
  {
    var opacity :- LoadOpacity(l.rawOpacity, lib);
    var visible :- LoadVisible(l.rawVisible);
    Success(l.(opacity := opacity, visible := visible))
  }

  /** `Layer.GetGrid`: the grid view of the layer's data at the layer's
      dimensions. It fails as `GetTileGrid` does: first with the decoding
      error, then on a gid count other than `width * height`, then with the
      `make` panic of a negative width. */
  function GetGrid(l: Layer, lib: Library): (r: Result<Grid, Error>)
    ensures Tiles(l.data, lib).Failure? ==> r == Failure(Tiles(l.data, lib).error)
    ensures Tiles(l.data, lib).Success? && |Tiles(l.data, lib).value| != l.width * l.height ==>
              r == Failure(TileCountMismatch(|Tiles(l.data, lib).value|, l.width, l.height))
    ensures Tiles(l.data, lib).Success? && |Tiles(l.data, lib).value| == l.width * l.height && l.width < 0 ==>
              r == Failure(WidthPanic(l.width))
    ensures r.Success? <==> (Tiles(l.data, lib).Success? && |Tiles(l.data, lib).value| == l.width * l.height
                             && l.width >= 0)
    ensures r.Success? ==> r.value.width == l.width && r.value.height == l.height && WellFormed(r.value)
    ensures r.Success? ==> var gids := Tiles(l.data, lib).value;
              forall x, y :: 0 <= x < l.width && 0 <= y < l.height ==>
                0 <= Offset(l.width, x, y) < |gids| && r.value.tiles[x][y] == Gid.ParseGid(gids[Offset(l.width, x, y)])
  {
    var r := GetTileGrid(l.data, l.width, l.height, lib);
    if r.Success? then GetTileGridWellFormed(l.data, l.width, l.height, lib); r else r
  }

  /** `Layer.SetGrid`: writes `grid` into the layer's data; nothing else
      changes. A well-formed grid of the layer's dimensions reads back as
      itself. */
  function SetGrid(l: Layer, grid: Grid, lib: Library): (r: Layer)
    requires Writable(grid)
    ensures r == l.(data := r.data)
    ensures r.data.encoding == "base64" && r.data.compression == "zlib" && r.data.rawTiles == []
    ensures Lawful(lib) && WellFormed(grid) && grid.width == l.width && grid.height == l.height ==>
              GetGrid(r, lib) == Success(grid)
  {
    var r := l.(data := SetTileGrid(l.data, grid, lib));
    if grid.width == l.width && grid.height == l.height && WellFormed(grid) then
      assert Lawful(lib) ==> GetGrid(r, lib) == Success(grid) by {
        if Lawful(lib) {
          GridRoundTrip(l.data, grid, lib);
        }
      }
      r
    else r
  }

  /** The attribute texts for writing: omitted when they hold the default,
      "0" for a hidden layer, the shortest decimal otherwise. Only the bit
      pattern of 1.0 compares equal to 1.0. */
  function SaveAttributes(l: Layer, lib: Library): (r: Layer)
    ensures r == l.(rawOpacity := r.rawOpacity, rawVisible := r.rawVisible)
    ensures r.rawVisible == "" <==> l.visible
    ensures !l.visible ==> r.rawVisible == "0"
    ensures LoadVisible(r.rawVisible) == Success(l.visible)
    ensures Lawful(lib) ==> (r.rawOpacity == "" <==> l.opacity == One)
    ensures Lawful(lib) && !IsNaN(l.opacity) ==>
              LoadOpacity(r.rawOpacity, lib) == Success(l.opacity)
  {
    var r := l.(rawVisible := if l.visible then "" else "0",
                rawOpacity := if l.opacity == One then "" else lib.formatFloat32(l.opacity));
    assert !AllSpace("0") by {
      assert !IsSpace("0"[0]);
    }
    assert ParseInt32("0") == Some(0) by {
      assert "0" == FormatInt(0);
      ParseFormatRoundTrip(0);
    }
    r
  }

  /** `Layer.beforeSerialize`: normalises the attribute texts, then rewrites
      the data through the grid view, which fails when the payload does not
      decode to `width * height` gids. */
  function SaveLayer(l: Layer, lib: Library): (r: Result<Layer, Error>)
    ensures r.Success? <==> GetGrid(l, lib).Success?
    ensures r.Failure? ==> r.error == GetGrid(l, lib).error
    ensures r.Success? ==> l.width >= 0
    ensures r.Success? ==> r.value == SaveAttributes(l, lib).(data := r.value.data)
    ensures r.Success? ==> r.value.data.encoding == "base64" && r.value.data.compression == "zlib"
    ensures r.Success? && Lawful(lib) ==> GetGrid(r.value, lib) == GetGrid(l, lib)
  {
    var l' := SaveAttributes(l, lib);
    assert GetGrid(l', lib) == GetGrid(l, lib);
    var grid :- GetGrid(l', lib);
    WellFormedWritable(grid);
    Success(SetGrid(l', grid, lib))
  }

  /** A layer whose attribute texts stand for its own opacity and
      visibility loads as itself. */
  lemma LoadConsistent(l: Layer, lib: Library)
    requires LoadOpacity(l.rawOpacity, lib) == Success(l.opacity)
    requires LoadVisible(l.rawVisible) == Success(l.visible)
    ensures LoadLayer(l, lib) == Success(l)
  {
  }

  /** A written layer reads back unchanged: its visibility, its opacity
      (unless NaN) and its grid survive a write and a read, so loading after
      saving is the identity on saved layers. */
  lemma LoadAfterSave(l: Layer, lib: Library)
    requires Lawful(lib) && !IsNaN(l.opacity) && SaveLayer(l, lib).Success?
    ensures var s := SaveLayer(l, lib).value;
            && LoadLayer(s, lib) == Success(s)
            && s.visible == l.visible && s.opacity == l.opacity
            && GetGrid(s, lib) == GetGrid(l, lib)
  {
    var a := SaveAttributes(l, lib);
    var s := SaveLayer(l, lib).value;
    assert s == a.(data := s.data);
    assert LoadOpacity(s.rawOpacity, lib) == Success(s.opacity);
    assert LoadVisible(s.rawVisible) == Success(s.visible);
    LoadConsistent(s, lib);
  }
}

=== FILE: littleendian.dfy ===
/** Little-endian packing of 32-bit words into bytes, as `binary.Read` and
    `binary.Write` with `binary.LittleEndian` do it for a `[]uint32`. */
module LittleEndian {

  type byte = bv8

  /** The word whose least significant byte is `b0`. */
  function Word(b0: byte, b1: byte, b2: byte, b3: byte): bv32 {
    (b0 as bv32) | ((b1 as bv32) << 8) | ((b2 as bv32) << 16) | ((b3 as bv32) << 24)
  }

  /** The four bytes of `w`, least significant first. */
  function WordBytes(w: bv32): (b: seq<byte>)
    ensures |b| == 4
  {
    [(w & 0xFF) as byte, ((w >> 8) & 0xFF) as byte, ((w >> 16) & 0xFF) as byte, (w >> 24) as byte]
  }

  lemma WordOfBytes(w: bv32)
    ensures var b := WordBytes(w); Word(b[0], b[1], b[2], b[3]) == w
  {
  }

  lemma BytesOfWord(b0: byte, b1: byte, b2: byte, b3: byte)
    ensures WordBytes(Word(b0, b1, b2, b3)) == [b0, b1, b2, b3]
  {
  }

  /** Reads as many whole words as `b` holds; 1 to 3 trailing bytes are
      ignored, as `binary.Read` into a slice of `len(b) / 4` words does. */
  function Decode(b: seq<byte>): (r: seq<bv32>)
    ensures |r| == |b| / 4
    ensures forall i :: 0 <= i < |r| ==> r[i] == Word(b[4 * i], b[4 * i + 1], b[4 * i + 2], b[4 * i + 3])
    decreases |b|
  {
    if |b| < 4 then []
    else [Word(b[0], b[1], b[2], b[3])] + Decode(b[4..])
  }

  /** Writes every word as four bytes, least significant first. */
  function Encode(ws: seq<bv32>): (r: seq<byte>)
    ensures |r| == 4 * |ws|
    ensures forall i, k :: 0 <= i < |ws| && 0 <= k < 4 ==> r[4 * i + k] == WordBytes(ws[i])[k]
  {
    if ws == [] then [] else WordBytes(ws[0]) + Encode(ws[1..])
  }

  /** Decoding an encoding gives back the words. */
  lemma {:induction false} DecodeEncode(ws: seq<bv32>)
    ensures Decode(Encode(ws)) == ws
  {
    if ws != [] {
      var b := Encode(ws);
      assert b[4..] == Encode(ws[1..]);
      DecodeEncode(ws[1..]);
      WordOfBytes(ws[0]);
    }
  }

  /** Encoding a decoding gives back the bytes up to the last whole word:
      trailing bytes are dropped, never reported. */
  lemma {:induction false} EncodeDecode(b: seq<byte>)
    ensures Encode(Decode(b)) == b[..4 * (|b| / 4)]
    decreases |b|
  {
    if |b| >= 4 {
      var r := Decode(b);
      assert r[1..] == Decode(b[4..]);
      EncodeDecode(b[4..]);
      BytesOfWord(b[0], b[1], b[2], b[3]);
      assert b[..4 * (|b| / 4)] == b[..4] + b[4..][..4 * (|b[4..]| / 4)];
    }
  }
}

=== FILE: maps.dfy ===
/** A TMX map (tmx.go, type Map): layer lookup, resolving a layer's gids to
    tiles against the map's tilesets, and the per-layer passes run after
    reading and before writing. */
module Maps {
  import opened Wrappers
  import opened GoInt
  import opened Gid
  import opened Schema
  import opened Externals
  import opened Errors
  import opened TileData
  import opened Tilesets
  import opened Layers
  import opened Passes

  datatype Map = Map(
    version: string,
    orientation: string,
    width: Int32,
    height: Int32,
    tileWidth: Int32,
    tileHeight: Int32,
    backgroundColor: string,
    properties: seq<Property>,
    tilesets: seq<Tileset>,
    layers: seq<Layer>)

  // ---------------------------------------------------------------------
  // Layer lookup
  // ---------------------------------------------------------------------

  /** The position of the first layer from `i` on named `name`, or
      `|layers|` if there is none. */
  function FindLayer(layers: seq<Layer>, name: string, i: nat): (k: nat)
    requires i <= |layers|
    ensures i <= k <= |layers|
    ensures k < |layers| ==> layers[k].name == name
    ensures forall j :: i <= j < k ==> layers[j].name != name
    decreases |layers| - i
  {
    if i == |layers| then i
    else if layers[i].name == name then i
    else FindLayer(layers, name, i + 1)
  }

  /** `Map.LayerByName`: the first layer with the name, or an error when no
      layer has it. */
  function LayerByName(m: Map, name: string): (r: Result<Layer, Error>)
    ensures r.Success? <==> exists i :: 0 <= i < |m.layers| && m.layers[i].name == name
    ensures r.Success? ==> exists i :: (0 <= i < |m.layers| && m.layers[i] == r.value && r.value.name == name
              && forall j :: 0 <= j < i ==> m.layers[j].name != name)
    ensures r.Failure? ==> r.error == NoLayerNamed(name)
  {
    var k := FindLayer(m.layers, name, 0);
    if k < |m.layers| then Success(m.layers[k]) else Failure(NoLayerNamed(name))
  }

  /** `Map.LayerByIndex`. The guard compares against `int32(len(layers))`
      with `>` rather than `>=`, so index `len(layers)` gets past it and the
      slice index then panics; that outcome is `IndexPanic`. */
  function LayerByIndex(m: Map, index: Int32): (r: Result<Layer, Error>)
    ensures r.Success? ==> 0 <= index < |m.layers| && r.value == m.layers[index]
    ensures |m.layers| < TwoTo31 ==> (r.Success? <==> 0 <= index < |m.layers|)
    ensures index < 0 ==> r == Failure(IndexOutOfBounds(index))
    ensures |m.layers| < TwoTo31 && index > |m.layers| ==> r == Failure(IndexOutOfBounds(index))
    ensures |m.layers| < TwoTo31 && index == |m.layers| ==> r == Failure(IndexPanic(index))
  {
    var count := Wrap32(|m.layers|);
    if index < 0 || index > count then Failure(IndexOutOfBounds(index))
    else if index >= |m.layers| then Failure(IndexPanic(index))
    else Success(m.layers[index])
  }

  // ---------------------------------------------------------------------
  // Resolving a layer's gids
  // ---------------------------------------------------------------------

  /** Where slot `i` of the layer goes in the world: column `i % width`
      from the left and row `i / width` from the top, flipped so that row 0
      is at the top of a `height`-row layer whose y axis points up. The
      `int32` arithmetic of the code is kept; the `float32` products are
      taken exactly. */
  function TileBoundsAt(m: Map, layer: Layer, i: nat): (b: Bounds)
    requires layer.width != 0
    ensures b.w == m.tileWidth && b.h == m.tileHeight
  {
    var k := Wrap32(i);
    Bounds(
      m.tileWidth * Rem(k, layer.width),
      m.tileHeight * Wrap32(layer.height - 1 - Div32(k, layer.width)),
      m.tileWidth,
      m.tileHeight)
  }

  /** Slot `i` lands `i % width` tiles from the left and
      `height - 1 - i / width` tiles from the bottom, when `i` and the row
      arithmetic stay within `int32`. */
  lemma TileBoundsOfSlot(m: Map, layer: Layer, i: nat)
    requires layer.width > 0 && i < TwoTo31 && InInt32(layer.height - 1 - i / layer.width)
    ensures TileBoundsAt(m, layer, i) ==
              Bounds(m.tileWidth * (i % layer.width), m.tileHeight * (layer.height - 1 - i / layer.width),
                     m.tileWidth, m.tileHeight)
  {
    QuotOfNatural(i, layer.width);
  }

  /** The slot of grid cell `(x, y)` lands `x` tiles from the left and
      `height - 1 - y` tiles from the bottom, when the slot index and the row
      arithmetic stay within `int32`. */
  lemma TileBoundsOfCell(m: Map, layer: Layer, x: int, y: nat)
    requires layer.width > 0 && 0 <= x < layer.width
    requires Offset(layer.width, x, y) < TwoTo31 && InInt32(layer.height - 1 - y)
    ensures 0 <= Offset(layer.width, x, y)
    ensures TileBoundsAt(m, layer, Offset(layer.width, x, y)) ==
              Bounds(m.tileWidth * x, m.tileHeight * (layer.height - 1 - y), m.tileWidth, m.tileHeight)
  {
    var w := layer.width;
    var k := Offset(w, x, y);
    OffsetShift(w, x, y);
    OffsetIsProduct(w, 0, y);
    GoInt.MulMonotone(w, y);
    assert 0 <= k;
    OffsetDivMod(w, x, y);
    assert Wrap32(k) == k;
    QuotOfNatural(k, w);
    assert Div32(k, w) == y;
    assert Rem(k, w) == x;
  }

  /** What resolving `gids` needs so as not to panic: a non-zero layer width
      whenever there is a slot (the bounds divide by it), and a texture
      rectangle for the tileset each non-zero gid resolves to. */
  predicate Resolvable(layer: Layer, tilesets: seq<Tileset>, gids: seq<Gid>) {
    && (|gids| > 0 ==> layer.width != 0)
    && forall k :: 0 <= k < |gids| && gids[k] != 0 ==> CanResolve(gids[k], tilesets)
  }

  /** `slot` is what `gid`, found in slot `k`, stands for: a hole for gid 0,
      otherwise the tile `newTile` makes of it at the slot's position. */
  ghost predicate SlotResolved(m: Map, layer: Layer, tilesets: seq<Tileset>, gid: Gid, k: nat, slot: Option<Tile>) {
    if gid == 0 then slot.None?
    else
      && slot.Some?
      && layer.width != 0
      && CanResolve(gid, tilesets)
      && NewTile(gid, tilesets, TileBoundsAt(m, layer, k)) == Success(slot.value)
  }

  /** Putting a resolved slot `i` in front of the resolved slots after it
      gives the resolved slots from `i` on. */
  lemma ConsResolved(m: Map, layer: Layer, tilesets: seq<Tileset>, gids: seq<Gid>, i: nat,
                     head: Option<Tile>, rest: seq<Option<Tile>>)
    requires i < |gids| && |rest| == |gids| - i - 1
    requires SlotResolved(m, layer, tilesets, gids[i], i, head)
    requires forall k :: i + 1 <= k < |gids| ==> SlotResolved(m, layer, tilesets, gids[k], k, rest[k - i - 1])
    ensures forall k :: i <= k < |gids| ==> SlotResolved(m, layer, tilesets, gids[k], k, ([head] + rest)[k - i])
  {
    forall k | i <= k < |gids|
      ensures SlotResolved(m, layer, tilesets, gids[k], k, ([head] + rest)[k - i])
    {
      if k > i {
        assert ([head] + rest)[k - i] == rest[k - i - 1];
      }
    }
  }

  /** The loop of `tilesFromLayer` from slot `i` on: gid 0 leaves a hole in
      its slot and every other gid becomes a tile; the first failure of
      `newTile`, which happens only when there are no tilesets, stops it. */
  function ResolveFrom(m: Map, layer: Layer, tilesets: seq<Tileset>, gids: seq<Gid>, i: nat): (r: Result<seq<Option<Tile>>, Error>)
    requires i <= |gids| && Resolvable(layer, tilesets, gids)
    ensures r.Failure? <==> (tilesets == [] && exists k :: i <= k < |gids| && gids[k] != 0)
    ensures r.Failure? ==> r.error == NoTilesets
    ensures r.Success? ==> (|r.value| == |gids| - i &&
              forall k :: i <= k < |gids| ==> SlotResolved(m, layer, tilesets, gids[k], k, r.value[k - i]))
    decreases |gids| - i
  {
    if i == |gids| then Success([])
    else if gids[i] == 0 then
      var rest :- ResolveFrom(m, layer, tilesets, gids, i + 1);
      ConsResolved(m, layer, tilesets, gids, i, None, rest);
      Success([None] + rest)
    else
      var t :- NewTile(gids[i], tilesets, TileBoundsAt(m, layer, i));
      var rest := ResolveFrom(m, layer, tilesets, gids, i + 1).value;
      ConsResolved(m, layer, tilesets, gids, i, Some(t), rest);
      Success([Some(t)] + rest)
  }

  /** The outcome of `tilesFromLayer`: the map's tilesets as the call leaves
      them (it sorts them in place once the layer has decoded) and the tiles
      or the error. */
  datatype Resolution = Resolution(tilesets: seq<Tileset>, tiles: Result<seq<Option<Tile>>, Error>)

  /** What `tilesFromLayer` needs so as not to panic on `layer`. */
  predicate CanResolveLayer(m: Map, layer: Layer, lib: Library) {
    match Tiles(layer.data, lib)
    case Failure(_) => true
    case Success(gids) => Resolvable(layer, SortByFirstGid(m.tilesets), gids)
  }

  /** `Map.tilesFromLayer`: decodes the layer, orders the tilesets by first
      gid, and resolves every slot. The result has one slot per decoded gid:
      holes stay where their gid 0 was. A decoding error leaves the tilesets
      as they were; resolving fails only on a map without tilesets. */
  function TilesFromLayer(m: Map, layer: Layer, lib: Library): (r: Resolution)
    requires CanResolveLayer(m, layer, lib)
    ensures multiset(r.tilesets) == multiset(m.tilesets)
    ensures Tiles(layer.data, lib).Failure? ==>
              r == Resolution(m.tilesets, Failure(Tiles(layer.data, lib).error))
    ensures Tiles(layer.data, lib).Success? ==> SortedByFirstGid(r.tilesets)
    ensures r.tiles.Success? ==> (Tiles(layer.data, lib).Success? &&
              |r.tiles.value| == |Tiles(layer.data, lib).value| &&
              forall k :: 0 <= k < |r.tiles.value| ==>
                SlotResolved(m, layer, r.tilesets, Tiles(layer.data, lib).value[k], k, r.tiles.value[k]))
    ensures r.tiles.Failure? && Tiles(layer.data, lib).Success? ==>
              (r.tiles.error == NoTilesets && m.tilesets == [])
  {
    match Tiles(layer.data, lib)
    case Failure(e) => Resolution(m.tilesets, Failure(e))
    case Success(gids) =>
      var sorted := SortByFirstGid(m.tilesets);
      assert sorted == [] ==> m.tilesets == [] by {
        assert |sorted| == |multiset(sorted)| == |multiset(m.tilesets)| == |m.tilesets|;
      }
      Resolution(sorted, ResolveFrom(m, layer, sorted, gids, 0))
  }

  /** Every slot of a resolved layer is a hole exactly where the gid is 0,
      and otherwise a tile of one of the map's tilesets whose index, added
      back to that tileset's first gid modulo 2^32, is the gid's id, with the
      gid's flags, at the slot's world position. */
  lemma TilesFromLayerSlots(m: Map, layer: Layer, lib: Library, k: nat)
    requires CanResolveLayer(m, layer, lib)
    requires TilesFromLayer(m, layer, lib).tiles.Success?
    requires k < |TilesFromLayer(m, layer, lib).tiles.value|
    ensures Tiles(layer.data, lib).Success? && k < |Tiles(layer.data, lib).value|
    ensures var gid := Tiles(layer.data, lib).value[k];
            var slot := TilesFromLayer(m, layer, lib).tiles.value[k];
            && (slot.None? <==> gid == 0)
            && (slot.Some? ==>
                  && slot.value.tileset.Some?
                  && slot.value.tileset.value in m.tilesets
                  && (slot.value.index + Key(slot.value.tileset.value) == IdValue(gid) ||
                      slot.value.index + Key(slot.value.tileset.value) == IdValue(gid) + TwoTo32)
                  && slot.value.flipHorz == ParseGid(gid).flipX
                  && slot.value.flipVert == ParseGid(gid).flipY
                  && slot.value.flipDiag == ParseGid(gid).flipD
                  && slot.value.tileBounds == TileBoundsAt(m, layer, k))
  {
    var r := TilesFromLayer(m, layer, lib);
    var gid := Tiles(layer.data, lib).value[k];
    var slot := r.tiles.value[k];
    assert SlotResolved(m, layer, r.tilesets, gid, k, slot);
    if gid != 0 {
      var t := slot.value;
      assert t == NewTile(gid, r.tilesets, TileBoundsAt(m, layer, k)).value;
      assert t.tileset.value in multiset(r.tilesets);
    }
  }

  /** `Map.TilesFromLayerName`: `tilesFromLayer` on the first layer with
      the name. */
  function TilesFromLayerName(m: Map, name: string, lib: Library): (r: Resolution)
    requires LayerByName(m, name).Success? ==> CanResolveLayer(m, LayerByName(m, name).value, lib)
    ensures LayerByName(m, name).Failure? ==> r == Resolution(m.tilesets, Failure(NoLayerNamed(name)))
    ensures LayerByName(m, name).Success? ==> r == TilesFromLayer(m, LayerByName(m, name).value, lib)
  {
    match LayerByName(m, name)
    case Failure(e) => Resolution(m.tilesets, Failure(e))
    case Success(layer) => TilesFromLayer(m, layer, lib)
  }

  /** `Map.TilesFromLayerIndex`: `tilesFromLayer` on the layer at the
      index. */
  function TilesFromLayerIndex(m: Map, index: Int32, lib: Library): (r: Resolution)
    requires LayerByIndex(m, index).Success? ==> CanResolveLayer(m, m.layers[index], lib)
    ensures LayerByIndex(m, index).Failure? ==> r == Resolution(m.tilesets, Failure(LayerByIndex(m, index).error))
    ensures LayerByIndex(m, index).Success? ==> r == TilesFromLayer(m, m.layers[index], lib)
  {
    match LayerByIndex(m, index)
    case Failure(e) => Resolution(m.tilesets, Failure(e))
    case Success(layer) => TilesFromLayer(m, layer, lib)
  }

  // ---------------------------------------------------------------------
  // Map passes
  // ---------------------------------------------------------------------

  /** The step `afterDeserialize` runs on each layer. */
  function Loader(lib: Library): Layer -> Result<Layer, Error> {
    l => LoadLayer(l, lib)
  }

  /** The step `beforeSerialize` runs on each layer. */
  function Saver(lib: Library): Layer -> Result<Layer, Error> {
    l => SaveLayer(l, lib)
  }

  /** `Map.afterDeserialize`: loads every layer in order, stopping at the
      first that fails; nothing but the layers changes. */
  function AfterDeserialize(m: Map, lib: Library): (r: Result<Map, Error>)
    ensures r.Success? ==> (r.value == m.(layers := r.value.layers) && |r.value.layers| == |m.layers| &&
              forall i :: 0 <= i < |m.layers| ==> LoadLayer(m.layers[i], lib) == Success(r.value.layers[i]))
    ensures r.Failure? ==> exists i :: FirstFailure(m.layers, Loader(lib), i, r.error)
  {
    ReachesAll(m.layers, Loader(lib));
    var layers :- Collect(m.layers, Loader(lib));
    Success(m.(layers := layers))
  }

  /** `Map.beforeSerialize`: saves every layer in order, stopping at the
      first that fails; nothing but the layers changes. */
  function BeforeSerialize(m: Map, lib: Library): (r: Result<Map, Error>)
    ensures r.Success? ==> (r.value == m.(layers := r.value.layers) && |r.value.layers| == |m.layers| &&
              forall i :: 0 <= i < |m.layers| ==> m.layers[i].width >= 0 && SaveLayer(m.layers[i], lib) == Success(r.value.layers[i]))
    ensures r.Failure? ==> exists i :: FirstFailure(m.layers, Saver(lib), i, r.error)
  {
    ReachesAll(m.layers, Saver(lib));
    var layers :- Collect(m.layers, Saver(lib));
    Success(m.(layers := layers))
  }

  /** A saved layer is a fixed point of the load step and keeps the width
      and the grid of the layer it was saved from. */
  lemma SavedLayerLoads(l: Layer, s: Layer, lib: Library)
    requires Lawful(lib) && !IsNaN(l.opacity) && SaveLayer(l, lib) == Success(s)
    ensures Loader(lib)(s) == Success(s)
    ensures s.width == l.width && GetGrid(s, lib) == GetGrid(l, lib)
  {
    LoadAfterSave(l, lib);
  }

  /** Reading back a written map is the identity on it: every saved layer
      loads as itself. */
  lemma SaveThenLoad(m: Map, lib: Library)
    requires Lawful(lib) && BeforeSerialize(m, lib).Success?
    requires forall i :: 0 <= i < |m.layers| ==> !IsNaN(m.layers[i].opacity)
    ensures AfterDeserialize(BeforeSerialize(m, lib).value, lib) == BeforeSerialize(m, lib)
  {
    var saved := BeforeSerialize(m, lib).value;
    var ls := saved.layers;
    forall i | 0 <= i < |ls|
      ensures Loader(lib)(ls[i]) == Success(ls[i])
    {
      SavedLayerLoads(m.layers[i], ls[i], lib);
    }
    CollectIdentity(ls, Loader(lib));
    assert AfterDeserialize(saved, lib) == Success(saved.(layers := ls));
  }

  /** Writing a map keeps every layer's width and grid, flip flags
      included. */
  lemma SaveKeepsGrids(m: Map, lib: Library, i: nat)
    requires Lawful(lib) && BeforeSerialize(m, lib).Success? && i < |m.layers|
    ensures m.layers[i].width >= 0
    ensures var s := BeforeSerialize(m, lib).value.layers[i];
            s.width == m.layers[i].width && GetGrid(s, lib) == GetGrid(m.layers[i], lib)
  {
    var s := BeforeSerialize(m, lib).value.layers[i];
    assert SaveLayer(m.layers[i], lib) == Success(s);
  }
}

=== FILE: passes.dfy ===
/** A pass over a sequence that applies a fallible step to every element in
    order and returns at the first error, as the Go loops over a map's
    layers do. */
module Passes {
  import opened Wrappers

  /** `f` may be applied to every element the pass reaches: each one up to
      and including the first that `f` fails on. */
  ghost predicate Reaches<T, U, E>(xs: seq<T>, f: T --> Result<U, E>) {
    xs == [] || (f.requires(xs[0]) && (f(xs[0]).Success? ==> Reaches(xs[1..], f)))
  }

  /** Element `i` is the first that `f` fails on, and it fails with `e`. */
  ghost predicate FirstFailure<T, U, E>(xs: seq<T>, f: T --> Result<U, E>, i: int, e: E) {
    && 0 <= i < |xs|
    && (forall j :: 0 <= j < i ==> f.requires(xs[j]) && f(xs[j]).Success?)
    && f.requires(xs[i]) && f(xs[i]) == Failure(e)
  }

  /** The pass: the results of `f` on every element, or the error of the
      first element it fails on. */
  function Collect<T, U, E>(xs: seq<T>, f: T --> Result<U, E>): (r: Result<seq<U>, E>)
    requires Reaches(xs, f)
    ensures r.Success? ==> (|r.value| == |xs| &&
              forall i :: 0 <= i < |xs| ==> f.requires(xs[i]) && f(xs[i]) == Success(r.value[i]))
    ensures r.Failure? ==> exists i :: FirstFailure(xs, f, i, r.error)
  {
    if xs == [] then Success([])
    else match f(xs[0])
      case Failure(e) =>
        assert FirstFailure(xs, f, 0, e);
        Failure(e)
      case Success(y) =>
        match Collect(xs[1..], f)
        case Failure(e) =>
          assert exists i :: FirstFailure(xs, f, i, e) by {
            var i :| FirstFailure(xs[1..], f, i, e);
            assert FirstFailure(xs, f, i + 1, e) by {
              assert forall j :: 1 <= j < i + 1 ==> xs[j] == xs[1..][j - 1];
            }
          }
          Failure(e)
        case Success(ys) =>
          assert forall i :: 1 <= i < |xs| ==> xs[i] == xs[1..][i - 1] && ([y] + ys)[i] == ys[i - 1];
          Success([y] + ys)
  }

  /** The pass succeeds exactly when `f` succeeds on every element. */
  lemma CollectSucceeds<T, U, E>(xs: seq<T>, f: T --> Result<U, E>)
    requires Reaches(xs, f)
    ensures Collect(xs, f).Success? <==> forall i :: 0 <= i < |xs| ==> f.requires(xs[i]) && f(xs[i]).Success?
  {
    var r := Collect(xs, f);
    if r.Failure? {
      var i :| FirstFailure(xs, f, i, r.error);
    }
  }

  /** A step that gives back every element unchanged makes the pass give
      back the whole sequence. */
  lemma {:induction false} CollectIdentity<T, E>(xs: seq<T>, f: T --> Result<T, E>)
    requires forall i :: 0 <= i < |xs| ==> f.requires(xs[i]) && f(xs[i]) == Success(xs[i])
    ensures Reaches(xs, f) && Collect(xs, f) == Success(xs)
    decreases |xs|
  {
    if xs != [] {
      assert forall i :: 0 <= i < |xs[1..]| ==> xs[1..][i] == xs[i + 1];
      CollectIdentity(xs[1..], f);
      assert f(xs[0]) == Success(xs[0]);
      assert xs == [xs[0]] + xs[1..];
    }
  }

  /** A step defined on every element reaches all of them. */
  lemma {:induction false} ReachesAll<T, U, E>(xs: seq<T>, f: T --> Result<U, E>)
    requires forall i :: 0 <= i < |xs| ==> f.requires(xs[i])
    ensures Reaches(xs, f)
    decreases |xs|
  {
    if xs != [] {
      assert forall i :: 0 <= i < |xs[1..]| ==> xs[1..][i] == xs[i + 1];
      ReachesAll(xs[1..], f);
    }
  }
}

=== FILE: scenarios.dfy ===
/** Worked examples of the model on the inputs of the repository's unit tests
    (tmx_test.go): the gid codec cases, the layer attribute defaults, and
    the two 2x2 layers resolved against two tilesets. */
module Scenarios {
  import opened Wrappers
  import opened GoInt
  import opened Gid
  import opened Schema
  import opened Externals
  import opened Errors
  import opened TileData
  import opened Tilesets
  import opened Layers
  import opened Maps
  import opened Passes

  /** The four gids of the codec test, each parsed and re-encoded. */
  lemma GidExamples()
    ensures ParseGid(0x8000_0001) == GridTile(1, true, false, false)
    ensures ParseGid(0x4000_0003) == GridTile(3, false, true, false)
    ensures ParseGid(0x2000_0004) == GridTile(4, false, false, true)
    ensures ParseGid(0xA000_000E) == GridTile(14, true, false, true)
    ensures EncodeGid(GridTile(1, true, false, false)) == 0x8000_0001
    ensures EncodeGid(GridTile(3, false, true, false)) == 0x4000_0003
    ensures EncodeGid(GridTile(4, false, false, true)) == 0x2000_0004
    ensures EncodeGid(GridTile(14, true, false, true)) == 0xA000_000E
  {
  }

  /** A layer with the given attribute texts and plain (unencoded) gids. */
  function PlainLayer(name: string, rawOpacity: string, rawVisible: string, gids: seq<Gid>): Layer {
    Layer(name, 0, 0, 2, 2, rawOpacity, One, rawVisible, true, [], Data("", "", gids, ""))
  }

  /** A layer without `opacity` and `visible` attributes is opaque and
      visible. */
  lemma DefaultAttributesExample(lib: Library)
    ensures LoadLayer(PlainLayer("Tile Layer 3", "", "", []), lib).Success?
    ensures LoadLayer(PlainLayer("Tile Layer 3", "", "", []), lib).value.opacity == One
    ensures LoadLayer(PlainLayer("Tile Layer 3", "", "", []), lib).value.visible
  {
    assert LoadOpacity("", lib) == Success(One);
    assert LoadVisible("") == Success(true);
  }

  /** `visible="0"` hides a layer. */
  lemma HiddenExample()
    ensures LoadVisible("0") == Success(false)
  {
    assert !GoStrings.AllSpace("0") by {
      assert !GoStrings.IsSpace("0"[0]);
    }
    assert GoStrings.ParseInt32("0") == Some(0) by {
      assert "0" == GoStrings.FormatInt(0);
      GoStrings.ParseFormatRoundTrip(0);
    }
  }

  /** The float32 0.5. */
  const Half: Float32 := Float32(0x3F00_0000)

  /** `opacity="0.5" visible="0"` gives the opacity 0.5 and a hidden layer,
      given a float parser that reads "0.5" correctly. */
  lemma ParsedAttributesExample(lib: Library)
    requires lib.parseFloat32("0.5") == Some(Half)
    ensures LoadLayer(PlainLayer("Stars", "0.5", "0", []), lib).Success?
    ensures LoadLayer(PlainLayer("Stars", "0.5", "0", []), lib).value.opacity == Half
    ensures !LoadLayer(PlainLayer("Stars", "0.5", "0", []), lib).value.visible
  {
    assert !GoStrings.AllSpace("0.5") by {
      assert !GoStrings.IsSpace("0.5"[0]);
    }
    assert LoadOpacity("0.5", lib) == Success(Half);
    HiddenExample();
  }

  /** A layer one column wide in the negative direction, two rows high and
      without tile elements: the gid count (zero) is checked against
      `width * height` (-2) before anything is allocated, so saving it gives
      the count error, and so does saving a map holding it. */
  lemma NegativeWidthExample(lib: Library)
    ensures var l := Layer("x", 0, 0, -1, 2, "", One, "", true, [], Data("", "", [], ""));
            && SaveLayer(l, lib) == Failure(TileCountMismatch(0, -1, 2))
            && BeforeSerialize(Map("1.0", "orthogonal", 1, 2, 16, 16, "", [], [], [l]), lib)
               == Failure(TileCountMismatch(0, -1, 2))
  {
    var l := Layer("x", 0, 0, -1, 2, "", One, "", true, [], Data("", "", [], ""));
    assert Tiles(l.data, lib) == Success([]);
    assert GetGrid(l, lib) == Failure(TileCountMismatch(0, -1, 2));
    var m := Map("1.0", "orthogonal", 1, 2, 16, 16, "", [], [], [l]);
    var r := BeforeSerialize(m, lib);
    assert r.Failure? ==> FirstFailure(m.layers, Saver(lib), 0, r.error);
  }

  /** A 16x16-tile tileset over a 64x16 image: four tiles in one row. */
  function Sprites(firstGid: Uint32, name: string): Tileset {
    Tileset(firstGid, "", name, 16, 16, 0, 0, None, [], Some(Image("", 0, "", "", 64, 16)))
  }

  /** The tilesets of the resolution test: `sprites1` from gid 1 and
      `sprites2` from gid 5. */
  function ExampleTilesets(): seq<Tileset> {
    [Sprites(1, "sprites1"), Sprites(5, "sprites2")]
  }

  /** The 2x2 map of the resolution test, with its two layers. */
  function ExampleMap(): Map {
    Map("1.0", "orthogonal", 2, 2, 16, 16, "", [], ExampleTilesets(),
        [PlainLayer("layer1", "", "", [1, 0, 2, 6]),
         PlainLayer("layer2", "", "", [0x8000_0001, 0x4000_0003, 0x2000_0004, 0xA000_000E])])
  }

  lemma ExampleSorted()
    ensures SortByFirstGid(ExampleTilesets()) == ExampleTilesets()
  {
    var s := ExampleTilesets();
    assert s[1..][1..] == [];
    assert SortByFirstGid(s[1..]) == [s[1]];
    assert Insert(s[0], [s[1]]) == s;
  }

  lemma ExampleTextureDefined(firstGid: Uint32, name: string)
    ensures TextureDefined(Sprites(firstGid, name))
  {
    QuotOfNatural(64, 16);
    QuotOfNatural(16, 16);
  }

  /** Against the example tilesets, an id below 5 falls to `sprites1` and
      any other to `sprites2`, and both have texture rectangles. */
  lemma ExampleOwner(gid: Gid)
    ensures Owner(Keys(ExampleTilesets()), IdValue(gid)) == (if IdValue(gid) < 5 then 0 else 1)
    ensures CanResolve(gid, ExampleTilesets())
  {
    var ts := ExampleTilesets();
    assert Keys(ts) == [1, 5];
    ExampleTextureDefined(1, "sprites1");
    ExampleTextureDefined(5, "sprites2");
  }

  /** Against the example tilesets, a gid with id 1 to 4 is tile `id - 1`
      of `sprites1` and one with a larger id is tile `id - 5` of
      `sprites2`; the flags come from the gid. */
  lemma ExampleTile(gid: Gid, bounds: Bounds)
    requires 1 <= IdValue(gid)
    ensures CanResolve(gid, ExampleTilesets())
    ensures var t := NewTile(gid, ExampleTilesets(), bounds);
            var first := if IdValue(gid) < 5 then 1 else 5;
            && t.Success?
            && t.value.tileset == Some(if IdValue(gid) < 5 then Sprites(1, "sprites1") else Sprites(5, "sprites2"))
            && t.value.index == IdValue(gid) - first
            && t.value.flipHorz == ParseGid(gid).flipX
            && t.value.flipVert == ParseGid(gid).flipY
            && t.value.flipDiag == ParseGid(gid).flipD
  {
    ExampleOwner(gid);
    var t := NewTile(gid, ExampleTilesets(), bounds).value;
    assert Key(t.tileset.value) == if IdValue(gid) < 5 then 1 else 5;
  }

  /** A resolved slot holding a non-zero gid is the tile `ExampleTile`
      describes. */
  lemma ExampleSlot(m: Map, layer: Layer, gid: Gid, k: nat, slot: Option<Tile>)
    requires 1 <= IdValue(gid) && SlotResolved(m, layer, ExampleTilesets(), gid, k, slot)
    ensures slot.Some?
    ensures slot.value.tileset == Some(if IdValue(gid) < 5 then Sprites(1, "sprites1") else Sprites(5, "sprites2"))
    ensures slot.value.index == IdValue(gid) - (if IdValue(gid) < 5 then 1 else 5)
    ensures slot.value.flipHorz == ParseGid(gid).flipX
    ensures slot.value.flipVert == ParseGid(gid).flipY
    ensures slot.value.flipDiag == ParseGid(gid).flipD
  {
    ExampleTile(gid, TileBoundsAt(m, layer, k));
  }

  /** `t` is tile `index` of `tileset`, with none of the three flips. */
  predicate PlainTile(t: Tile, tileset: Tileset, index: int) {
    && t.tileset == Some(tileset) && t.index == index
    && !t.flipVert && !t.flipHorz && !t.flipDiag
  }

  lemma ExampleIds()
    ensures IdValue(1) == 1 && IdValue(2) == 2 && IdValue(6) == 6
    ensures IdValue(0x8000_0001) == 1 && IdValue(0x4000_0003) == 3
    ensures IdValue(0x2000_0004) == 4 && IdValue(0xA000_000E) == 14
  {
    GidExamples();
  }

  /** The first layer by index: gid 0 leaves a hole, gids 1 and 2 are tiles
      0 and 1 of `sprites1`, and gid 6 is tile 1 of `sprites2`; no flags. */
  lemma FirstLayerExample(lib: Library)
    ensures CanResolveLayer(ExampleMap(), ExampleMap().layers[0], lib)
    ensures var r := TilesFromLayerIndex(ExampleMap(), 0, lib);
            && r.tiles.Success? && |r.tiles.value| == 4
            && r.tiles.value[1] == None
            && r.tiles.value[0].Some? && r.tiles.value[2].Some? && r.tiles.value[3].Some?
            && PlainTile(r.tiles.value[0].value, Sprites(1, "sprites1"), 0)
            && PlainTile(r.tiles.value[2].value, Sprites(1, "sprites1"), 1)
            && PlainTile(r.tiles.value[3].value, Sprites(5, "sprites2"), 1)
  {
    var m := ExampleMap();
    var layer := m.layers[0];
    var gids: seq<Gid> := [1, 0, 2, 6];
    ExampleSorted();
    ExampleIds();
    assert Tiles(layer.data, lib) == Success(gids);
    ExampleOwner(1);
    ExampleOwner(2);
    ExampleOwner(6);
    assert Resolvable(layer, ExampleTilesets(), gids);
    var r := TilesFromLayer(m, layer, lib);
    assert TilesFromLayerIndex(m, 0, lib) == r;
    assert r.tilesets == ExampleTilesets();
    assert r.tiles.Success?;
    var t := r.tiles.value;
    assert SlotResolved(m, layer, r.tilesets, gids[1], 1, t[1]);
    ExampleSlot(m, layer, gids[0], 0, t[0]);
    ExampleSlot(m, layer, gids[2], 2, t[2]);
    ExampleSlot(m, layer, gids[3], 3, t[3]);
  }

  /** The second layer by name: the flags come off each gid, ids 1, 3 and
      4 are tiles 0, 2 and 3 of `sprites1`, and id 14 is tile 9 of
      `sprites2`. */
  lemma SecondLayerExample(lib: Library)
    ensures LayerByName(ExampleMap(), "layer2") == Success(ExampleMap().layers[1])
    ensures CanResolveLayer(ExampleMap(), ExampleMap().layers[1], lib)
    ensures var r := TilesFromLayerName(ExampleMap(), "layer2", lib);
            && r.tiles.Success? && |r.tiles.value| == 4
            && r.tiles.value[0].Some? && r.tiles.value[1].Some?
            && r.tiles.value[2].Some? && r.tiles.value[3].Some?
            && r.tiles.value[0].value.index == 0 && r.tiles.value[0].value.flipHorz
            && r.tiles.value[1].value.index == 2 && r.tiles.value[1].value.flipVert
            && r.tiles.value[2].value.index == 3 && r.tiles.value[2].value.flipDiag
            && r.tiles.value[3].value.index == 9
            && r.tiles.value[3].value.flipHorz && r.tiles.value[3].value.flipDiag
            && r.tiles.value[0].value.tileset == Some(Sprites(1, "sprites1"))
            && r.tiles.value[1].value.tileset == Some(Sprites(1, "sprites1"))
            && r.tiles.value[2].value.tileset == Some(Sprites(1, "sprites1"))
            && r.tiles.value[3].value.tileset == Some(Sprites(5, "sprites2"))
  {
    var m := ExampleMap();
    var layer := m.layers[1];
    var gids: seq<Gid> := [0x8000_0001, 0x4000_0003, 0x2000_0004, 0xA000_000E];
    assert m.layers[0].name != "layer2";
    assert FindLayer(m.layers, "layer2", 0) == 1;
    ExampleSorted();
    ExampleIds();
    GidExamples();
    assert Tiles(layer.data, lib) == Success(gids);
    ExampleOwner(gids[0]);
    ExampleOwner(gids[1]);
    ExampleOwner(gids[2]);
    ExampleOwner(gids[3]);
    assert Resolvable(layer, ExampleTilesets(), gids);
    var r := TilesFromLayer(m, layer, lib);
    assert TilesFromLayerName(m, "layer2", lib) == r;
    assert r.tilesets == ExampleTilesets();
    assert r.tiles.Success?;
    var t := r.tiles.value;
    ExampleSlot(m, layer, gids[0], 0, t[0]);
    ExampleSlot(m, layer, gids[1], 1, t[1]);
    ExampleSlot(m, layer, gids[2], 2, t[2]);
    ExampleSlot(m, layer, gids[3], 3, t[3]);
  }
}

=== FILE: schema.dfy ===
/** Records of the TMX document that the core only carries along: they are
    mapped to and from the markup declaratively and no algorithm reads them
    beyond the fields named here. */
module Schema {
  import opened GoInt

  /** A name/value pair; order within its owner is kept. */
  datatype Property = Property(name: string, value: string)

  /** A drawing offset in pixels for the tiles of a tileset. */
  datatype TileOffset = TileOffset(x: Int32, y: Int32)

  /** A tileset's source image; `width` and `height` are in pixels. */
  datatype Image = Image(format: string, id: Int32, source: string, trans: string, width: Int32, height: Int32)
}

=== FILE: tiledata.dfy ===
/** A layer's tile payload (tmx.go, type Data): decoding it to gids, the
    column-major grid view of those gids, and writing a grid back. */
module TileData {
  import opened Wrappers
  import opened GoStrings
  import opened Gid
  import LE = LittleEndian
  import opened Externals
  import opened Errors

  type byte = LE.byte

  /** `encoding` is "base64", "csv" or anything else (literal tile
      elements in `rawTiles`); `compression` is "gzip", "zlib" or anything
      else (none); `rawContents` is the element's character data. */
  datatype Data = Data(encoding: string, compression: string, rawTiles: seq<Gid>, rawContents: string)

  /** The grid view: `tiles[x][y]` is the cell in column `x`, row `y`. */
  datatype Grid = Grid(width: int, height: int, tiles: seq<seq<GridTile>>)

  /** The payload text without its surrounding white space. */
  function Contents(d: Data): (s: string)
    ensures exists i, j :: 0 <= i <= j <= |d.rawContents| && s == d.rawContents[i..j]
              && AllSpace(d.rawContents[..i]) && AllSpace(d.rawContents[j..])
    ensures s == [] <==> AllSpace(d.rawContents)
    ensures s != [] ==> !IsSpace(s[0]) && !IsSpace(s[|s| - 1])
  {
    TrimSpace(d.rawContents)
  }

  /** The bytes a base64 payload carries: the decoded text, inflated when
      the compression is "gzip" or "zlib" and taken as it is otherwise. */
  function Payload(d: Data, lib: Library): (r: Result<seq<byte>, Error>)
    ensures lib.base64Decode(Contents(d)).None? ==> r == Failure(Base64Invalid)
    ensures d.compression == "gzip" && lib.base64Decode(Contents(d)).Some? ==>
              r == (match lib.gzipDecompress(lib.base64Decode(Contents(d)).value)
                    case None => Failure(GzipInvalid)
                    case Some(b) => Success(b))
    ensures d.compression == "zlib" && lib.base64Decode(Contents(d)).Some? ==>
              r == (match lib.zlibDecompress(lib.base64Decode(Contents(d)).value)
                    case None => Failure(ZlibInvalid)
                    case Some(b) => Success(b))
    ensures d.compression != "gzip" && d.compression != "zlib" ==>
              r == (match lib.base64Decode(Contents(d))
                    case None => Failure(Base64Invalid)
                    case Some(raw) => Success(raw))
  {
    match lib.base64Decode(Contents(d))
    case None => Failure(Base64Invalid)
    case Some(raw) =>
      if d.compression == "gzip" then
        match lib.gzipDecompress(raw)
        case None => Failure(GzipInvalid)
        case Some(b) => Success(b)
      else if d.compression == "zlib" then
        match lib.zlibDecompress(raw)
        case None => Failure(ZlibInvalid)
        case Some(b) => Success(b)
      else Success(raw)
  }

  /** The gids of a base64 payload: one little-endian word per four bytes,
      with 1 to 3 trailing bytes dropped rather than reported. */
  function Base64Tiles(d: Data, lib: Library): (r: Result<seq<Gid>, Error>)
    ensures r.Success? <==> Payload(d, lib).Success?
    ensures r.Failure? ==> r.error == Payload(d, lib).error
    ensures r.Success? ==> var b := Payload(d, lib).value;
              && |r.value| == |b| / 4
              && forall i :: 0 <= i < |r.value| ==>
                   r.value[i] == LE.Word(b[4 * i], b[4 * i + 1], b[4 * i + 2], b[4 * i + 3])
  {
    var b :- Payload(d, lib);
    Success(LE.Decode(b))
  }

  /** The "csv" encoding is not implemented and always fails. */
  function CsvTiles(d: Data): (r: Result<seq<Gid>, Error>)
    ensures r.Failure? && r.error == CsvNotImplemented
  {
    Failure(CsvNotImplemented)
  }

  /** The layer's gids in row-major order, by the payload's encoding. */
  function Tiles(d: Data, lib: Library): (r: Result<seq<Gid>, Error>)
    ensures d.encoding == "csv" ==> r == Failure(CsvNotImplemented)
    ensures d.encoding != "base64" && d.encoding != "csv" ==> r == Success(d.rawTiles)
    ensures d.encoding == "base64" ==> r == Base64Tiles(d, lib)
    ensures d.encoding == "base64" ==> (r.Success? <==> Payload(d, lib).Success?)
    ensures d.encoding == "base64" && r.Failure? ==> r.error == Payload(d, lib).error
    ensures d.encoding == "base64" && r.Success? ==> |r.value| == |Payload(d, lib).value| / 4
  {
    if d.encoding == "base64" then Base64Tiles(d, lib)
    else if d.encoding == "csv" then CsvTiles(d)
    else Success(d.rawTiles)
  }

  /** The position of cell `(x, y)` in a row-major sequence `w` cells wide,
      that is `w * y + x` (see `OffsetIsProduct`). It is spelled out by
      recursion on the row so that contracts quantifying over cells stay
      linear for the solver. */
  function Offset(w: int, x: int, y: nat): int {
    if y == 0 then x else Offset(w, x, y - 1) + w
  }

  lemma {:induction false} OffsetIsProduct(w: int, x: int, y: nat)
    ensures Offset(w, x, y) == w * y + x
  {
    if y > 0 {
      OffsetIsProduct(w, x, y - 1);
    }
  }

  /** Cells of a `w` by `h` grid sit strictly inside the first
      `Offset(w, 0, h)` positions, each row after the ones above it. */
  lemma {:induction false} OffsetInRange(w: int, h: nat, x: int, y: nat)
    requires 0 <= x < w && y < h
    ensures Offset(w, 0, y) <= Offset(w, x, y) < Offset(w, 0, y + 1) <= Offset(w, 0, h)
    ensures 0 <= Offset(w, x, y)
    decreases h
  {
    if y + 1 < h {
      OffsetInRange(w, h - 1, x, y);
    }
    OffsetIsProduct(w, x, y);
    OffsetIsProduct(w, 0, y);
    OffsetIsProduct(w, 0, y + 1);
    OffsetIsProduct(w, 0, h);
    GoInt.MulMonotone(w, y);
    GoInt.MulMonotone(w, h - y - 1);
  }

  /** Every position below `w * h` is the offset of exactly the cell
      `(k % w, k / w)`. */
  lemma RowMajorInverse(w: int, h: int, k: int)
    requires w > 0 && 0 <= k < w * h
    ensures 0 <= k / w < h && 0 <= k % w < w
    ensures Offset(w, k % w, k / w) == k
  {
    if k / w >= h {
      GoInt.MulMonotone(w, k / w - h);
      assert false;
    }
    OffsetIsProduct(w, k % w, k / w);
  }

  /** Conversely, the offset of `(x, y)` divided by the width gives back
      the row `y` with remainder `x`. */
  lemma OffsetDivMod(w: int, x: int, y: nat)
    requires 0 <= x < w
    ensures Offset(w, x, y) / w == y && Offset(w, x, y) % w == x
  {
    OffsetIsProduct(w, x, y);
    var k := w * y + x;
    var q, r := k / w, k % w;
    assert k == w * q + r && 0 <= r < w;
    assert w * (y - q) == r - x;
    if y - q >= 1 {
      GoInt.MulMonotone(w, y - q - 1);
      assert false;
    }
    if y - q <= -1 {
      GoInt.MulNegative(w, y - q);
      assert false;
    }
  }

  lemma NonNegativeFactor(w: int, h: int)
    requires w > 0 && w * h >= 0
    ensures h >= 0
  {
    if h < 0 {
      GoInt.MulNegative(w, h);
      assert false;
    }
  }

  /** Column `x` of the grid view of `gids`. */
  function Column(gids: seq<Gid>, w: int, h: nat, x: int): (col: seq<GridTile>)
    requires 0 <= x < w && |gids| == w * h
    ensures |col| == h
    ensures forall y :: 0 <= y < h ==> 0 <= Offset(w, x, y) < |gids| && col[y] == ParseGid(gids[Offset(w, x, y)])
  {
    OffsetIsProduct(w, 0, h);
    assert forall y :: 0 <= y < h ==> 0 <= Offset(w, x, y) < |gids| by {
      forall y | 0 <= y < h
        ensures 0 <= Offset(w, x, y) < |gids|
      {
        OffsetInRange(w, h, x, y);
      }
    }
    seq(h, y requires 0 <= y < h => ParseGid(gids[Offset(w, x, y)]))
  }

  /** The grid view of a row-major gid sequence of `w * h` cells. */
  function GridOf(gids: seq<Gid>, w: int, h: int): (g: Grid)
    requires w >= 0 && |gids| == w * h
    ensures g.width == w && g.height == h && |g.tiles| == w
    ensures forall x :: 0 <= x < w ==> |g.tiles[x]| == h
    ensures forall x, y :: 0 <= x < w && 0 <= y < h ==>
              0 <= Offset(w, x, y) < |gids| && g.tiles[x][y] == ParseGid(gids[Offset(w, x, y)])
  {
    if w == 0 then Grid(w, h, [])
    else
      NonNegativeFactor(w, h);
      var cols := seq(w, x requires 0 <= x < w => Column(gids, w, h, x));
      assert forall x, y :: 0 <= x < w && 0 <= y < h ==>
               0 <= Offset(w, x, y) < |gids| && cols[x][y] == ParseGid(gids[Offset(w, x, y)]) by {
        forall x, y | 0 <= x < w && 0 <= y < h
          ensures 0 <= Offset(w, x, y) < |gids| && cols[x][y] == ParseGid(gids[Offset(w, x, y)])
        {
          assert cols[x] == Column(gids, w, h, x);
        }
      }
      Grid(w, h, cols)
  }

  /** `GetTileGrid`: decodes the payload and re-indexes its row-major gids
      into columns of parsed cells. It fails when decoding fails or when the
      gid count is not `width * height`, whatever the signs of the
      dimensions. Only once the count matches does it `make` the columns,
      which panics for a negative width (possible only with a height of at
      most zero); that outcome is `WidthPanic`. */
  function GetTileGrid(d: Data, width: int, height: int, lib: Library): (r: Result<Grid, Error>)
    ensures Tiles(d, lib).Failure? ==> r == Failure(Tiles(d, lib).error)
    ensures Tiles(d, lib).Success? && |Tiles(d, lib).value| != width * height ==>
              r == Failure(TileCountMismatch(|Tiles(d, lib).value|, width, height))
    ensures Tiles(d, lib).Success? && |Tiles(d, lib).value| == width * height && width < 0 ==>
              r == Failure(WidthPanic(width)) && height <= 0
    ensures r.Success? <==> Tiles(d, lib).Success? && |Tiles(d, lib).value| == width * height && width >= 0
    ensures r.Success? ==> var g := r.value; var gids := Tiles(d, lib).value;
              && g.width == width && g.height == height && |g.tiles| == width
              && (forall x :: 0 <= x < width ==> |g.tiles[x]| == height)
              && forall x, y :: 0 <= x < width && 0 <= y < height ==>
                   0 <= Offset(width, x, y) < |gids| && g.tiles[x][y] == ParseGid(gids[Offset(width, x, y)])
  {
    var gids :- Tiles(d, lib);
    if |gids| != width * height then Failure(TileCountMismatch(|gids|, width, height))
    else if width < 0 then
      assert height <= 0 by {
        if height > 0 {
          GoInt.MulNegative(height, width);
        }
      }
      Failure(WidthPanic(width))
    else Success(GridOf(gids, width, height))
  }

  /** What `SetTileGrid` needs of a grid so as not to panic: a product of
      the dimensions that `make` accepts, and a cell for every `(x, y)` the
      loops visit. */
  predicate Writable(g: Grid) {
    && g.width * g.height >= 0
    && (g.width > 0 && g.height > 0 ==>
          |g.tiles| >= g.width && forall x :: 0 <= x < g.width ==> |g.tiles[x]| >= g.height)
  }

  /** Row `y` of the grid, each cell re-encoded. */
  function Row(g: Grid, y: nat): (row: seq<Gid>)
    requires g.width >= 0 && |g.tiles| >= g.width
    requires forall x :: 0 <= x < g.width ==> y < |g.tiles[x]|
    ensures |row| == g.width
    ensures forall x :: 0 <= x < g.width ==> row[x] == EncodeGid(g.tiles[x][y])
  {
    seq(g.width, x requires 0 <= x < g.width => EncodeGid(g.tiles[x][y]))
  }

  /** A cell's offset is its row's offset plus its column. */
  lemma {:induction false} OffsetShift(w: int, x: int, y: nat)
    ensures Offset(w, x, y) == Offset(w, 0, y) + x
  {
    if y > 0 {
      OffsetShift(w, x, y - 1);
    }
  }

  /** Gid `Offset(width, x, y)` of `gids` is the encoding of cell `(x, y)`,
      for every cell of the first `n` rows. */
  ghost predicate HoldsRows(g: Grid, gids: seq<Gid>, n: nat)
    requires g.width >= 0 && |g.tiles| >= g.width
    requires forall x :: 0 <= x < g.width ==> n <= |g.tiles[x]|
  {
    forall x, y :: 0 <= x < g.width && 0 <= y < n ==>
      0 <= Offset(g.width, x, y) < |gids| && gids[Offset(g.width, x, y)] == EncodeGid(g.tiles[x][y])
  }

  /** Appending row `n - 1` to the first `n - 1` rows gives the first `n`. */
  lemma AppendRow(g: Grid, n: nat, above: seq<Gid>, last: seq<Gid>)
    requires g.width >= 0 && |g.tiles| >= g.width && n > 0
    requires forall x :: 0 <= x < g.width ==> n <= |g.tiles[x]|
    requires |above| == Offset(g.width, 0, n - 1) && HoldsRows(g, above, n - 1)
    requires |last| == g.width && forall x :: 0 <= x < g.width ==> last[x] == EncodeGid(g.tiles[x][n - 1])
    ensures |above + last| == Offset(g.width, 0, n)
    ensures HoldsRows(g, above + last, n)
  {
    var w, gids := g.width, above + last;
    forall x, y | 0 <= x < w && 0 <= y < n
      ensures 0 <= Offset(w, x, y) < |gids| && gids[Offset(w, x, y)] == EncodeGid(g.tiles[x][y])
    {
      if y < n - 1 {
        assert gids[Offset(w, x, y)] == above[Offset(w, x, y)];
      } else {
        OffsetShift(w, x, n - 1);
        OffsetInRange(w, n, x, n - 1);
        assert gids[Offset(w, x, y)] == last[x];
      }
    }
  }

  /** The first `n` rows of the grid, re-encoded and laid end to end. */
  function Rows(g: Grid, n: nat): (gids: seq<Gid>)
    requires g.width >= 0 && |g.tiles| >= g.width
    requires forall x :: 0 <= x < g.width ==> n <= |g.tiles[x]|
    ensures |gids| == Offset(g.width, 0, n)
    ensures HoldsRows(g, gids, n)
  {
    if n == 0 then []
    else
      var above, last := Rows(g, n - 1), Row(g, n - 1);
      AppendRow(g, n, above, last);
      above + last
  }

  /** The grid re-linearised row-major with every cell re-encoded. Only the
      `width` by `height` window is read; if the dimensions are both
      negative Go allocates `width * height` zero gids and writes none. */
  function Linearise(g: Grid): (gids: seq<Gid>)
    requires Writable(g)
    ensures |gids| == g.width * g.height
    ensures forall x, y :: 0 <= x < g.width && 0 <= y < g.height ==>
              0 <= Offset(g.width, x, y) < |gids| && gids[Offset(g.width, x, y)] == EncodeGid(g.tiles[x][y])
    ensures g.width <= 0 || g.height <= 0 ==> forall k :: 0 <= k < |gids| ==> gids[k] == 0
  {
    if g.width > 0 && g.height > 0 then
      OffsetIsProduct(g.width, 0, g.height);
      var gids := Rows(g, g.height);
      assert HoldsRows(g, gids, g.height);
      gids
    else
      seq(g.width * g.height, k => 0)
  }

  /** `SetTileGrid`: normalises the payload to zlib-compressed base64 of the
      re-encoded cells and drops any literal tile elements. Every field of
      `Data` is overwritten, so the old payload does not matter. */
  function SetTileGrid(d: Data, g: Grid, lib: Library): (r: Data)
    requires Writable(g)
    ensures r.encoding == "base64" && r.compression == "zlib" && r.rawTiles == []
  {
    Data("base64", "zlib", [], lib.base64Encode(lib.zlibCompress(LE.Encode(Linearise(g)))))
  }

  /** Under lawful codecs, zlib-compressed base64 of some bytes decodes to
      the words of those bytes. */
  lemma TilesOfPacked(bytes: seq<byte>, lib: Library)
    requires Lawful(lib)
    ensures Tiles(Data("base64", "zlib", [], lib.base64Encode(lib.zlibCompress(bytes))), lib) == Success(LE.Decode(bytes))
  {
    var d := Data("base64", "zlib", [], lib.base64Encode(lib.zlibCompress(bytes)));
    PayloadOfPacked(bytes, lib);
    assert Tiles(d, lib) == Base64Tiles(d, lib);
  }

  /** The bytes under a base64, zlib-compressed payload are the bytes that
      were compressed. */
  lemma PayloadOfPacked(bytes: seq<byte>, lib: Library)
    requires Lawful(lib)
    ensures Payload(Data("base64", "zlib", [], lib.base64Encode(lib.zlibCompress(bytes))), lib) == Success(bytes)
  {
    var packed := lib.zlibCompress(bytes);
    var d := Data("base64", "zlib", [], lib.base64Encode(packed));
    assert lib.base64Decode(Contents(d)) == Some(packed);
    assert lib.zlibDecompress(packed) == Some(bytes);
  }

  /** Reading back a written grid yields its re-encoded cells, row-major:
      gid `Offset(width, x, y)` is the encoding of cell `(x, y)`. */
  lemma TilesOfSetTileGrid(d: Data, g: Grid, lib: Library)
    requires Lawful(lib) && Writable(g)
    ensures Tiles(SetTileGrid(d, g, lib), lib) == Success(Linearise(g))
  {
    var gids := Linearise(g);
    TilesOfPacked(LE.Encode(gids), lib);
    LE.DecodeEncode(gids);
  }

  /** A grid whose shape matches its dimensions and whose ids fit in 29
      bits, as every grid `GetTileGrid` returns. */
  predicate WellFormed(g: Grid) {
    && g.width >= 0 && |g.tiles| == g.width
    && (forall x :: 0 <= x < g.width ==> |g.tiles[x]| == g.height)
    && forall x, y :: 0 <= x < g.width && 0 <= y < |g.tiles[x]| ==> g.tiles[x][y].id < IdLimit
  }

  lemma WellFormedWritable(g: Grid)
    requires WellFormed(g)
    ensures Writable(g)
  {
    if g.width > 0 {
      assert |g.tiles[0]| == g.height;
    }
  }

  /** Viewing the linearisation of a well-formed grid gives the grid back. */
  lemma GridOfLinearise(g: Grid)
    requires WellFormed(g)
    ensures Writable(g) && GridOf(Linearise(g), g.width, g.height) == g
  {
    WellFormedWritable(g);
    var w, h := g.width, g.height;
    var g' := GridOf(Linearise(g), w, h);
    forall x | 0 <= x < w
      ensures g'.tiles[x] == g.tiles[x]
    {
      forall y | 0 <= y < h
        ensures g'.tiles[x][y] == g.tiles[x][y]
      {
        ParseEncode(g.tiles[x][y]);
      }
    }
    assert g'.tiles == g.tiles;
  }

  /** Linearising the view of `w * h` gids gives the gids back, flags
      included. */
  lemma LineariseGridOf(gids: seq<Gid>, w: int, h: int)
    requires w >= 0 && |gids| == w * h
    ensures Writable(GridOf(gids, w, h)) && Linearise(GridOf(gids, w, h)) == gids
  {
    var g := GridOf(gids, w, h);
    if w > 0 {
      NonNegativeFactor(w, h);
    }
    assert Writable(g);
    var out := Linearise(g);
    if w > 0 && h > 0 {
      forall k | 0 <= k < |gids|
        ensures out[k] == gids[k]
      {
        RowMajorInverse(w, h, k);
        EncodeParse(gids[k]);
      }
    }
  }

  /** Writing a well-formed grid and reading it back gives the same grid:
      every id and every flip flag of every cell survives. */
  lemma GridRoundTrip(d: Data, g: Grid, lib: Library)
    requires Lawful(lib) && WellFormed(g)
    ensures Writable(g)
    ensures GetTileGrid(SetTileGrid(d, g, lib), g.width, g.height, lib) == Success(g)
  {
    GridOfLinearise(g);
    TilesOfSetTileGrid(d, g, lib);
  }

  /** Every grid the view returns is well-formed. */
  lemma GetTileGridWellFormed(d: Data, width: int, height: int, lib: Library)
    requires GetTileGrid(d, width, height, lib).Success?
    ensures WellFormed(GetTileGrid(d, width, height, lib).value)
  {
  }

  /** Reading the grid, writing it back and reading it again changes
      nothing: the write-back only normalises the encoding. */
  lemma GetSetGetStable(d: Data, width: int, height: int, lib: Library)
    requires Lawful(lib) && GetTileGrid(d, width, height, lib).Success?
    ensures var g := GetTileGrid(d, width, height, lib).value;
            Writable(g) && GetTileGrid(SetTileGrid(d, g, lib), width, height, lib) == Success(g)
  {
    var g := GetTileGrid(d, width, height, lib).value;
    GetTileGridWellFormed(d, width, height, lib);
    GridRoundTrip(d, g, lib);
  }

  /** The decoded gids themselves survive a read and write-back, flags
      included, although the encoding may change to zlib-compressed base64. */
  lemma TilesStable(d: Data, width: int, height: int, lib: Library)
    requires Lawful(lib) && GetTileGrid(d, width, height, lib).Success?
    ensures var g := GetTileGrid(d, width, height, lib).value;
            Writable(g) && Tiles(SetTileGrid(d, g, lib), lib) == Tiles(d, lib)
  {
    var g := GetTileGrid(d, width, height, lib).value;
    var gids := Tiles(d, lib).value;
    assert g == GridOf(gids, width, height);
    LineariseGridOf(gids, width, height);
    TilesOfSetTileGrid(d, g, lib);
  }
}

=== FILE: tilesets.dfy ===
/** Tilesets and the tiles resolved against them (tmx.go: Tileset, Tile,
    newTile, byFirstGid, Tileset.TextureBounds, GetTexturePath). */
module Tilesets {
  import opened Wrappers
  import opened GoInt
  import opened Gid
  import opened Schema
  import opened Errors

  /** A tileset: the gids from `firstGid` on name its tiles, cut from
      `image` in `tileWidth` by `tileHeight` pieces. */
  datatype Tileset = Tileset(
    firstGid: Uint32,
    source: string,
    name: string,
    tileWidth: Int32,
    tileHeight: Int32,
    spacing: Int32,
    margin: Int32,
    tileOffset: Option<TileOffset>,
    properties: seq<Property>,
    image: Option<Image>)

  /** A rectangle. Go keeps the `float32` conversion of these integers; the
      model keeps the integers themselves. */
  datatype Bounds = Bounds(x: int, y: int, w: int, h: int)

  /** A resolved cell of a layer: its index within its tileset, the flip
      flags of its gid, where it goes in the world and where it comes from in
      the tileset's image. */
  datatype Tile = Tile(
    index: Uint32,
    tileset: Option<Tileset>,
    flipVert: bool,
    flipHorz: bool,
    flipDiag: bool,
    tileBounds: Bounds,
    textureBounds: Bounds)

  // ---------------------------------------------------------------------
  // Texture rectangles
  // ---------------------------------------------------------------------

  /** How many tiles fit across and down the image: Go's truncating `int32`
      division. */
  function TilesWide(ts: Tileset): Int32
    requires ts.image.Some? && ts.tileWidth != 0
  {
    Div32(ts.image.value.width, ts.tileWidth)
  }

  function TilesHigh(ts: Tileset): Int32
    requires ts.image.Some? && ts.tileHeight != 0
  {
    Div32(ts.image.value.height, ts.tileHeight)
  }

  /** The divisions `TextureBounds` performs are all by non-zero values, so
      it does not panic. */
  predicate TextureDefined(ts: Tileset) {
    ts.image.None? ||
    (ts.tileWidth != 0 && ts.tileHeight != 0 && TilesWide(ts) != 0 && TilesHigh(ts) != 0)
  }

  /** `Tileset.TextureBounds`: the image rectangle of tile `index`, counted
      in rows from the bottom of the image. All-zero when there is no image.
      The column is `index % tileshigh`, exactly as the code has it (see
      `TextureColumnUsesRows`). `int32(index)` reinterprets the bits, and
      every `int32` product wraps. */
  function TextureBounds(ts: Tileset, index: Uint32): (b: Bounds)
    requires TextureDefined(ts)
    ensures ts.image.None? ==> b == Bounds(0, 0, 0, 0)
    ensures ts.image.Some? ==> b.w == ts.tileWidth && b.h == ts.tileHeight
    ensures InInt32(b.x) && InInt32(b.y)
  {
    match ts.image
    case None => Bounds(0, 0, 0, 0)
    case Some(_) =>
      var wide, high := TilesWide(ts), TilesHigh(ts);
      var i := Wrap32(index);
      Bounds(
        Wrap32(Rem(i, high) * ts.tileWidth),
        Wrap32((high - 1 - Div32(i, wide)) * ts.tileHeight),
        ts.tileWidth,
        ts.tileHeight)
  }

  /** With positive sizes, an index below 2^31 and products that fit in an
      `int32`, the rectangle is the plain arithmetic one: row
      `index / tileswide` from the bottom and column `index % tileshigh`. */
  lemma TextureBoundsPlain(ts: Tileset, index: Uint32)
    requires ts.image.Some? && ts.tileWidth > 0 && ts.tileHeight > 0
    requires ts.image.value.width >= 0 && ts.image.value.height >= 0
    requires TextureDefined(ts) && index < TwoTo31
    requires var wide, high := ts.image.value.width / ts.tileWidth, ts.image.value.height / ts.tileHeight;
             InInt32((index % high) * ts.tileWidth) &&
             InInt32((high - 1 - index / wide) * ts.tileHeight)
    ensures var wide, high := ts.image.value.width / ts.tileWidth, ts.image.value.height / ts.tileHeight;
            TextureBounds(ts, index) ==
              Bounds((index % high) * ts.tileWidth,
                     (high - 1 - index / wide) * ts.tileHeight,
                     ts.tileWidth, ts.tileHeight)
  {
    var img := ts.image.value;
    var wide, high := TilesWide(ts), TilesHigh(ts);
    assert wide == img.width / ts.tileWidth && high == img.height / ts.tileHeight;
    var i := index;
    assert Wrap32(i) == i;
    QuotOfNatural(i, wide);
    QuotOfNatural(i, high);
    assert Div32(i, wide) == i / wide;
  }

  /** The column of a texture rectangle is taken modulo the number of rows:
      in a 64 by 16 image of 16-pixel tiles (four across, one down) tiles 0
      and 1 get the same rectangle. */
  lemma TextureColumnUsesRows()
    ensures var ts := Tileset(1, "", "", 16, 16, 0, 0, None, [], Some(Image("", 0, "", "", 64, 16)));
            TextureDefined(ts) && TextureBounds(ts, 0) == TextureBounds(ts, 1) == Bounds(0, 0, 16, 16)
  {
    var ts := Tileset(1, "", "", 16, 16, 0, 0, None, [], Some(Image("", 0, "", "", 64, 16)));
    QuotOfNatural(64, 16);
    QuotOfNatural(16, 16);
    assert TilesWide(ts) == 4 && TilesHigh(ts) == 1;
    QuotOfNatural(1, 4);
    QuotOfNatural(1, 1);
    QuotOfNatural(0, 4);
    QuotOfNatural(0, 1);
  }

  // ---------------------------------------------------------------------
  // Ordering by first gid
  // ---------------------------------------------------------------------

  /** A tileset's first gid as a number; `uint32` comparison is comparison
      of these. */
  function Key(t: Tileset): nat {
    t.firstGid
  }

  /** The first gids of the tilesets, in order. */
  function Keys(s: seq<Tileset>): (k: seq<nat>)
    ensures |k| == |s| && forall i :: 0 <= i < |s| ==> k[i] == Key(s[i])
  {
    seq(|s|, i requires 0 <= i < |s| => Key(s[i]))
  }

  ghost predicate SortedKeys(k: seq<nat>) {
    forall i, j :: 0 <= i < j < |k| ==> k[i] <= k[j]
  }

  /** `byFirstGid`'s order: non-decreasing first gids. */
  ghost predicate SortedByFirstGid(s: seq<Tileset>) {
    forall i, j :: 0 <= i < j < |s| ==> Key(s[i]) <= Key(s[j])
  }

  lemma ConsSorted(x: Tileset, rest: seq<Tileset>)
    requires SortedByFirstGid(rest) && (rest != [] ==> Key(x) <= Key(rest[0]))
    ensures SortedByFirstGid([x] + rest)
  {
    var r := [x] + rest;
    forall i, j | 0 <= i < j < |r|
      ensures Key(r[i]) <= Key(r[j])
    {
      if i == 0 {
        assert r[j] == rest[j - 1];
        if j > 1 {
          assert Key(rest[0]) <= Key(rest[j - 1]);
        }
      } else {
        assert r[i] == rest[i - 1] && r[j] == rest[j - 1];
      }
    }
  }

  lemma SortedTail(s: seq<Tileset>)
    requires s != [] && SortedByFirstGid(s)
    ensures SortedByFirstGid(s[1..])
  {
    forall i, j | 0 <= i < j < |s| - 1
      ensures Key(s[1..][i]) <= Key(s[1..][j])
    {
      assert s[1..][i] == s[i + 1] && s[1..][j] == s[j + 1];
    }
  }

  /** Puts `t` before the first tileset whose first gid is not below its own. */
  function Insert(t: Tileset, s: seq<Tileset>): (r: seq<Tileset>)
    ensures multiset(r) == multiset(s) + multiset{t}
    ensures |r| == |s| + 1
    ensures r[0] == t || (s != [] && r[0] == s[0])
    ensures SortedByFirstGid(s) ==> SortedByFirstGid(r)
  {
    if s == [] then [t]
    else if Key(t) <= Key(s[0]) then
      assert SortedByFirstGid(s) ==> SortedByFirstGid([t] + s) by {
        if SortedByFirstGid(s) {
          ConsSorted(t, s);
        }
      }
      [t] + s
    else
      var rest := Insert(t, s[1..]);
      assert multiset([s[0]] + rest) == multiset(s) + multiset{t} by {
        assert s == [s[0]] + s[1..];
      }
      assert SortedByFirstGid(s) ==> SortedByFirstGid([s[0]] + rest) by {
        if SortedByFirstGid(s) {
          SortedTail(s);
          if rest[0] != t {
            assert rest[0] == s[1];
          }
          ConsSorted(s[0], rest);
        }
      }
      [s[0]] + rest
  }

  /** `sort.Sort(byFirstGid(...))`: some permutation ordered by first gid.
      Go's sort is not stable; this one is, and `TieOrderIrrelevant` shows
      that which order ties end up in does not change any resolved index. */
  function SortByFirstGid(s: seq<Tileset>): (r: seq<Tileset>)
    ensures SortedByFirstGid(r)
    ensures multiset(r) == multiset(s)
  {
    if s == [] then []
    else
      assert s == [s[0]] + s[1..];
      Insert(s[0], SortByFirstGid(s[1..]))
  }

  /** `f` applied to every element, in order. */
  function Project<T>(s: seq<T>, f: T -> nat): (k: seq<nat>)
    ensures |k| == |s|
  {
    if s == [] then [] else [f(s[0])] + Project(s[1..], f)
  }

  lemma {:induction false} ProjectAt<T>(s: seq<T>, f: T -> nat, i: nat)
    requires i < |s|
    ensures Project(s, f)[i] == f(s[i])
    decreases i
  {
    if i > 0 {
      ProjectAt(s[1..], f, i - 1);
    }
  }

  lemma {:induction false} ProjectAppend<T>(x: seq<T>, y: seq<T>, f: T -> nat)
    ensures Project(x + y, f) == Project(x, f) + Project(y, f)
    decreases |x|
  {
    if x == [] {
      assert x + y == y;
    } else {
      assert (x + y)[1..] == x[1..] + y;
      ProjectAppend(x[1..], y, f);
    }
  }

  lemma SplitAt<T>(s: seq<T>, i: nat)
    requires i < |s|
    ensures s == s[..i] + [s[i]] + s[i + 1..]
  {
  }

  /** Dropping position `i` drops one element from the multiset. */
  lemma RemoveAt<T>(s: seq<T>, i: nat)
    requires i < |s|
    ensures multiset(s[..i] + s[i + 1..]) == multiset(s) - multiset{s[i]}
  {
    SplitAt(s, i);
  }

  /** Dropping position `i` drops one value from the projection's multiset. */
  lemma ProjectRemoveAt<T>(s: seq<T>, i: nat, f: T -> nat)
    requires i < |s|
    ensures multiset(Project(s, f)) == multiset(Project(s[..i] + s[i + 1..], f)) + multiset{f(s[i])}
  {
    var x, y := s[..i], s[i + 1..];
    var px, py := Project(x, f), Project(y, f);
    assert Project(s, f) == px + [f(s[i])] + py by {
      SplitAt(s, i);
      ProjectAppend(x + [s[i]], y, f);
      ProjectAppend(x, [s[i]], f);
      assert Project([s[i]], f) == [f(s[i])];
    }
    assert Project(x + y, f) == px + py by {
      ProjectAppend(x, y, f);
    }
    assert multiset(px + [f(s[i])] + py) == multiset(px) + multiset{f(s[i])} + multiset(py);
  }

  /** The head of one of two permutations sits at some position `i` of the
      other, and the rests are again permutations of each other. */
  lemma MatchHead<T>(a: seq<T>, b: seq<T>) returns (i: nat)
    requires a != [] && multiset(a) == multiset(b)
    ensures i < |b| && b[i] == a[0]
    ensures multiset(a[1..]) == multiset(b[..i] + b[i + 1..])
  {
    assert a[0] in multiset(b);
    i :| 0 <= i < |b| && b[i] == a[0];
    RemoveAt(b, i);
    assert a == [a[0]] + a[1..];
  }

  /** Permutations project to permutations. */
  lemma {:induction false} ProjectPermutation<T>(a: seq<T>, b: seq<T>, f: T -> nat)
    requires multiset(a) == multiset(b)
    ensures multiset(Project(a, f)) == multiset(Project(b, f))
    decreases |a|
  {
    if a == [] {
      assert |b| == |multiset(b)| == 0;
    } else {
      var i := MatchHead(a, b);
      ProjectPermutation(a[1..], b[..i] + b[i + 1..], f);
      ProjectRemoveAt(a, 0, f);
      assert a[..0] + a[1..] == a[1..];
      ProjectRemoveAt(b, i, f);
    }
  }

  /** `Keys` is the projection on first gids. */
  lemma KeysProject(s: seq<Tileset>)
    ensures Keys(s) == Project(s, Key)
  {
    forall i | 0 <= i < |s|
      ensures Keys(s)[i] == Project(s, Key)[i]
    {
      ProjectAt(s, Key, i);
    }
  }

  /** Tilesets that are a permutation of each other have first gids that are
      a permutation of each other. */
  lemma KeysPermutation(a: seq<Tileset>, b: seq<Tileset>)
    requires multiset(a) == multiset(b)
    ensures multiset(Keys(a)) == multiset(Keys(b))
  {
    ProjectPermutation(a, b, Key);
    KeysProject(a);
    KeysProject(b);
  }

  lemma SortedKeysTail(k: seq<nat>)
    requires k != [] && SortedKeys(k)
    ensures SortedKeys(k[1..])
  {
    forall i, j | 0 <= i < j < |k| - 1
      ensures k[1..][i] <= k[1..][j]
    {
      assert k[1..][i] == k[i + 1] && k[1..][j] == k[j + 1];
    }
  }

  /** The first of ordered keys is the least of them. */
  lemma HeadIsLeast(k: seq<nat>, x: nat)
    requires k != [] && SortedKeys(k) && x in k
    ensures k[0] <= x
  {
    var j :| 0 <= j < |k| && k[j] == x;
    if j > 0 {
      assert k[0] <= k[j];
    }
  }

  /** Two ordered sequences of keys holding the same keys are equal. */
  lemma {:induction false} SortedUnique(k1: seq<nat>, k2: seq<nat>)
    requires SortedKeys(k1) && SortedKeys(k2) && multiset(k1) == multiset(k2)
    ensures k1 == k2
    decreases |k1|
  {
    if k1 == [] {
      assert |k2| == |multiset(k2)| == 0;
    } else {
      assert k1[0] in multiset(k1);
      assert k2 != [];
      assert k2[0] in multiset(k2);
      HeadIsLeast(k2, k1[0]);
      HeadIsLeast(k1, k2[0]);
      assert k1 == [k1[0]] + k1[1..] && k2 == [k2[0]] + k2[1..];
      assert k1[0] == k2[0];
      assert multiset(k1[1..]) == multiset(k2[1..]) by {
        assert multiset(k1) == multiset{k1[0]} + multiset(k1[1..]);
        assert multiset(k2) == multiset{k2[0]} + multiset(k2[1..]);
        assert multiset(k1[1..]) == multiset(k1) - multiset{k1[0]};
        assert multiset(k2[1..]) == multiset(k2) - multiset{k2[0]};
      }
      SortedKeysTail(k1);
      SortedKeysTail(k2);
      SortedUnique(k1[1..], k2[1..]);
    }
  }

  /** Any two orderings by first gid of the same tilesets agree on the first
      gids, position by position; they can differ only in how tilesets with
      equal first gids are arranged. */
  lemma SortedKeysUnique(r1: seq<Tileset>, r2: seq<Tileset>)
    requires SortedByFirstGid(r1) && SortedByFirstGid(r2) && multiset(r1) == multiset(r2)
    ensures Keys(r1) == Keys(r2)
  {
    KeysPermutation(r1, r2);
    SortedUnique(Keys(r1), Keys(r2));
  }

  // ---------------------------------------------------------------------
  // Resolving a gid
  // ---------------------------------------------------------------------

  /** The scan of `newTile` from position `i` on: the position before the
      first key above `id`, or the last position if there is none. */
  function ScanFrom(keys: seq<nat>, id: nat, i: nat): (r: nat)
    requires 1 <= i <= |keys|
    ensures i - 1 <= r < |keys|
    ensures forall j :: i <= j <= r ==> keys[j] <= id
    ensures r + 1 < |keys| ==> id < keys[r + 1]
    decreases |keys| - i
  {
    if i == |keys| then |keys| - 1
    else if id < keys[i] then i - 1
    else ScanFrom(keys, id, i + 1)
  }

  /** The position of the tileset `newTile` picks for `id`: `r + 1` is the
      first position from 1 on whose key exceeds `id`. The first key is
      never compared. */
  function Owner(keys: seq<nat>, id: nat): (r: nat)
    requires keys != []
    ensures r < |keys|
    ensures forall j :: 1 <= j <= r ==> keys[j] <= id
    ensures r + 1 < |keys| ==> id < keys[r + 1]
  {
    ScanFrom(keys, id, 1)
  }

  /** On ordered keys with the first at most `id`, the owner holds the
      greatest key at most `id`, and is the last position holding it. */
  lemma OwnerIsGreatestAtMost(keys: seq<nat>, id: nat)
    requires keys != [] && SortedKeys(keys) && keys[0] <= id
    ensures keys[Owner(keys, id)] <= id
    ensures forall j :: 0 <= j < |keys| && keys[j] <= id ==> j <= Owner(keys, id)
  {
  }

  /** On ordered keys, an id below every key belongs to the first tileset. */
  lemma OwnerBelowFirst(keys: seq<nat>, id: nat)
    requires keys != [] && SortedKeys(keys) && id < keys[0]
    ensures Owner(keys, id) == 0
  {
    if |keys| > 1 {
      assert keys[0] <= keys[1];
    }
  }

  /** What `newTile` needs so as not to panic: the tileset it picks can
      compute its texture rectangle. */
  predicate CanResolve(gid: Gid, tilesets: seq<Tileset>) {
    tilesets != [] ==> TextureDefined(tilesets[Owner(Keys(tilesets), IdValue(gid))])
  }

  /** `newTile`: resolves a gid against tilesets (expected to be ordered by
      first gid). It fails only when there are none. The tile carries the
      gid's flags, and its index is the id minus the tileset's first gid in
      32-bit unsigned arithmetic, so adding them back gives the id and
      re-encoding gives the gid. */
  function NewTile(gid: Gid, tilesets: seq<Tileset>, tileBounds: Bounds): (r: Result<Tile, Error>)
    requires CanResolve(gid, tilesets)
    ensures tilesets == [] ==> r == Failure(NoTilesets)
    ensures tilesets != [] ==> r.Success? && r.value.tileset.Some?
    ensures r.Success? ==> var t := r.value; var p := ParseGid(gid);
              && t.tileset.Some?
              && t.tileset.value == tilesets[Owner(Keys(tilesets), IdValue(gid))]
              && (t.index + Key(t.tileset.value) == IdValue(gid) ||
                  t.index + Key(t.tileset.value) == IdValue(gid) + TwoTo32)
              && t.flipHorz == p.flipX && t.flipVert == p.flipY && t.flipDiag == p.flipD
              && t.tileBounds == tileBounds
              && t.textureBounds == TextureBounds(t.tileset.value, t.index)
  {
    if tilesets == [] then Failure(NoTilesets)
    else
      var p := ParseGid(gid);
      var ts := tilesets[Owner(Keys(tilesets), IdValue(gid))];
      var id := IdValue(gid);
      var index := if id >= ts.firstGid then id - ts.firstGid else id - ts.firstGid + TwoTo32;
      Success(Tile(index, Some(ts), p.flipY, p.flipX, p.flipD, tileBounds, TextureBounds(ts, index)))
  }

  /** On ordered tilesets whose first gid is at most the id, the tile's
      tileset has the greatest first gid not above the id and the index is
      the plain difference. */
  lemma NewTileOrdered(gid: Gid, tilesets: seq<Tileset>, tileBounds: Bounds)
    requires tilesets != [] && CanResolve(gid, tilesets) && SortedByFirstGid(tilesets)
    requires Key(tilesets[0]) <= IdValue(gid)
    ensures var t := NewTile(gid, tilesets, tileBounds).value;
            && Key(t.tileset.value) <= IdValue(gid)
            && (forall j :: 0 <= j < |tilesets| && Key(tilesets[j]) <= IdValue(gid) ==>
                  Key(tilesets[j]) <= Key(t.tileset.value))
            && t.index == IdValue(gid) - Key(t.tileset.value)
  {
    var keys, id := Keys(tilesets), IdValue(gid);
    OwnerIsGreatestAtMost(keys, id);
    var r := Owner(keys, id);
    forall j | 0 <= j < |tilesets| && Key(tilesets[j]) <= id
      ensures Key(tilesets[j]) <= Key(tilesets[r])
    {
      assert keys[j] <= id;
      assert j <= r;
      if j < r {
        assert keys[j] <= keys[r];
      }
    }
  }

  /** On ordered tilesets, an id below the first tileset's first gid still
      resolves to the first tileset, and its index wraps around 2^32. */
  lemma NewTileBelowFirst(gid: Gid, tilesets: seq<Tileset>, tileBounds: Bounds)
    requires tilesets != [] && CanResolve(gid, tilesets) && SortedByFirstGid(tilesets)
    requires IdValue(gid) < Key(tilesets[0])
    ensures var t := NewTile(gid, tilesets, tileBounds).value;
            && t.tileset.value == tilesets[0]
            && t.index == IdValue(gid) - Key(tilesets[0]) + TwoTo32
  {
    OwnerBelowFirst(Keys(tilesets), IdValue(gid));
  }

  /** Whatever order an unstable sort leaves tilesets with equal first gids
      in, `newTile` resolves every gid to the same index, flags and first
      gid; only which of the tied tilesets is named may differ. */
  lemma TieOrderIrrelevant(gid: Gid, r1: seq<Tileset>, r2: seq<Tileset>, tileBounds: Bounds)
    requires SortedByFirstGid(r1) && SortedByFirstGid(r2) && multiset(r1) == multiset(r2)
    requires CanResolve(gid, r1) && CanResolve(gid, r2)
    ensures NewTile(gid, r1, tileBounds).Success? <==> NewTile(gid, r2, tileBounds).Success?
    ensures NewTile(gid, r1, tileBounds).Success? ==>
              var t1, t2 := NewTile(gid, r1, tileBounds).value, NewTile(gid, r2, tileBounds).value;
              && t1.index == t2.index
              && Key(t1.tileset.value) == Key(t2.tileset.value)
              && t1.flipHorz == t2.flipHorz && t1.flipVert == t2.flipVert && t1.flipDiag == t2.flipDiag
  {
    SortedKeysUnique(r1, r2);
    if r1 != [] {
      assert |r2| == |multiset(r2)| == |multiset(r1)| == |r1|;
    } else {
      assert |r2| == |multiset(r2)| == 0;
    }
  }

  // ---------------------------------------------------------------------
  // Texture path
  // ---------------------------------------------------------------------

  /** A tile that names a tileset with an image. */
  predicate Suitable(t: Option<Tile>) {
    t.Some? && t.value.tileset.Some? && t.value.tileset.value.image.Some?
  }

  /** `GetTexturePath`: the image source of the first suitable tile, skipping
      holes and tiles without a tileset image. */
  function GetTexturePath(tiles: seq<Option<Tile>>): (r: Result<string, Error>)
    ensures r.Failure? <==> forall i :: 0 <= i < |tiles| ==> !Suitable(tiles[i])
    ensures r.Failure? ==> r.error == NoSuitableTileset
    ensures r.Success? ==> exists i :: (0 <= i < |tiles| && Suitable(tiles[i])
              && r.value == tiles[i].value.tileset.value.image.value.source
              && forall j :: 0 <= j < i ==> !Suitable(tiles[j]))
  {
    if tiles == [] then Failure(NoSuitableTileset)
    else if Suitable(tiles[0]) then Success(tiles[0].value.tileset.value.image.value.source)
    else
      var r := GetTexturePath(tiles[1..]);
      assert r.Success? ==> exists i :: (0 <= i < |tiles| && Suitable(tiles[i])
               && r.value == tiles[i].value.tileset.value.image.value.source
               && forall j :: 0 <= j < i ==> !Suitable(tiles[j])) by {
        if r.Success? {
          var i :| 0 <= i < |tiles[1..]| && Suitable(tiles[1..][i])
                   && r.value == tiles[1..][i].value.tileset.value.image.value.source
                   && forall j :: 0 <= j < i ==> !Suitable(tiles[1..][j]);
          assert forall j :: 0 <= j < i + 1 ==> !Suitable(tiles[j]) by {
            forall j | 0 <= j < i + 1
              ensures !Suitable(tiles[j])
            {
              if j > 0 {
                assert tiles[j] == tiles[1..][j - 1];
              }
            }
          }
        }
      }
      assert r.Failure? ==> forall i :: 0 <= i < |tiles| ==> !Suitable(tiles[i]) by {
        if r.Failure? {
          forall i | 0 <= i < |tiles|
            ensures !Suitable(tiles[i])
          {
            if i > 0 {
              assert tiles[i] == tiles[1..][i - 1];
            }
          }
        }
      }
      r
  }
}

=== FILE: wrappers.dfy ===
/** Failure-compatible outcomes used throughout the model: `Option` for a
    value that may be absent (a Go nil pointer, a library call that reports
    failure) and `Result` for a Go `(value, err)` pair. Both support `:-`. */
module Wrappers {

  datatype Option<+T> = None | Some(value: T) {
    predicate IsFailure() {
      None?
    }

    function PropagateFailure<U>(): Option<U>
      requires None?
    {
      None
    }

    function Extract(): T
      requires Some?
    {
      value
    }
  }

  datatype Result<+T, +E> = Success(value: T) | Failure(error: E) {
    predicate IsFailure() {
      Failure?
    }

    function PropagateFailure<U>(): Result<U, E>
      requires Failure?
    {
      Failure(error)
    }

    function Extract(): T
      requires Success?
    {
      value
    }
  }
}
